=== FILE: README.md ===
# tezos-net-viz crawler, modelled in Dafny

tezos-net-viz draws the peer graph of a Tezos network. It starts from one
node, asks each node's RPC server for its peer connections
(`/network/connections/`), and follows the peers it finds. It also reads
each node's head block (`/chains/main/blocks/head/`) and colours the node by
the head's level.

This project models the crawling core in Dafny. The models are:

- `IncrementingDefaultDict`, the colour memo. It is modelled as an
  insertion-ordered dictionary over a cycled list of defaults (`ColorMemo`).
- The rule that turns one connection record into a directed edge: strip one
  `::ffff:` prefix, then orient by `incoming` (`Peers`).
- The RPC URL templates (`Rpc`). They build on a model of Python's `str(int)`
  (`Decimal`).
- The strict directed graph and its record labels `"{addr}|{level}"` (`DiGraph`).
- `NodeTraverser`, the concurrent traverser, as an abstract transition system
  (`Traverser`, with its properties in `TraverserLemmas`). Each piece of a
  `traverse_node` or `restart_traversal` task between two `await`s is one
  atomic step. The asyncio event loop may interleave the steps of different
  tasks in any order. Network replies are parameters of the steps.
- The sequential crawler (`visualize.py`), a breadth-first worklist, as
  a method with loop invariants (`Worklist`). The network is a map from
  address to what fetching that node's connections delivers.
- `sleep_iterator`, which paces the web viewer (`Countdown`).

`common.dfy` holds `Option`/`Result` and a few sequence helpers.

An address enters `visited` when its crawl task starts
(`tezos_net_viz/visualize.py:164`), not when the task is scheduled
(`tezos_net_viz/visualize.py:208`). Between scheduling and starting, a node
that lists the same unvisited peer twice therefore creates two tasks for it,
and if the first task ends before the second starts, the peer is crawled
twice in one pass. `TraverserLemmas.DuplicateCrawlInOnePass` exhibits that
run.

Only `asyncio.TimeoutError` is caught (`tezos_net_viz/visualize.py:209`,
`visualize.py:45`):

- In the traverser, any other exception ends the task. The `finally` clause
  still releases `visit_lock` (the `Raised` cause of `Traverser.Abort`).
- In the sequential crawler, any other exception leaves `make_graph`, and no
  graph is rendered (`Worklist.CrawlError`).

A timeout can only strike before the first record of a reply is handed out:
`fetch` awaits the whole JSON body before it yields anything
(`visualize.py:20-25`; the traverser's `fetch_iterator` and `fetch` at
`tezos_net_viz/visualize.py:70-84` do the same), so a timed-out fetch
contributes no edges in either model.

## Model

| member | source | states |
|---|---|---|
| ColorMemo.New | tezos_net_viz/visualize.py:59-60 | a new memo has no keys and satisfies the round-robin invariant |
| ColorMemo.Get | tezos_net_viz/visualize.py:62-67 | a lookup fails exactly when the key is absent and there are no defaults (StopIteration), and it never changes the defaults |
| ColorMemo.GetSpec | tezos_net_viz/visualize.py:62-67 | a present key returns its stored value and leaves the memo unchanged; an absent key is appended with the next value of the cycle (the one handed out at call number `drawn`), that value is returned and stored, the cursor advances by one and the memo is extended; an absent key with no defaults fails (StopIteration) |
| ColorMemo.ValueOf | tezos_net_viz/visualize.py:63-64 | a stored value exists exactly for the keys in the dictionary |
| ColorMemo.CycledIsMod | tezos_net_viz/visualize.py:59-60 | the k-th value `itertools.cycle(defaults)` hands out is defaults[k mod \|defaults\|] |
| ColorMemo.GetPreservesValid | tezos_net_viz/visualize.py:43-67 | every lookup keeps the invariant: keys stored once, and the i-th inserted key holds the i-th value of the cycle |
| ColorMemo.ExtendsKeepsValues | tezos_net_viz/visualize.py:63-64 | later insertions never change the value stored for an existing key |
| ColorMemo.GetAllState | tezos_net_viz/visualize.py:62-67 | a run of lookups over non-empty defaults never fails, keeps the invariant, and appends exactly the unseen keys in first-sight order |
| ColorMemo.GetAllKeys | tezos_net_viz/visualize.py:62-67 | the keys after a run of lookups are the earlier keys followed by the unseen looked-up keys, each once, in first-sight order |
| ColorMemo.GetAllValues | tezos_net_viz/visualize.py:62-67 | each value a run of lookups returns is the value the final dictionary holds for that key |
| ColorMemo.ValidValue | tezos_net_viz/visualize.py:59-67 | in a valid memo the j-th inserted key maps to the j-th value of the cycle |
| ColorMemo.FreshKeys | tezos_net_viz/visualize.py:62-67 | pairwise distinct unseen keys are appended in order, the i-th getting the cycle's value number drawn + i |
| ColorMemo.DistinctKeysFromNew | tezos_net_viz/visualize.py:43-67 | from a fresh memo, distinct keys are stored in lookup order and the i-th gets the i-th value of the cycle |
| ColorMemo.RoundRobinFromNew | tezos_net_viz/visualize.py:43-67 | from a fresh memo, the key first seen as the j-th distinct key gets defaults[j mod \|defaults\|] at every occurrence, and the keys end up in first-sight order |
| ColorMemo.DocstringExample | tezos_net_viz/visualize.py:47-56 | defaults [3, 4] with lookups 1, 2, 3 give 3, 4, 3 and the dictionary {1: 3, 2: 4, 3: 3} |
| ColorMemo.PaletteWraps | tezos_net_viz/visualize.py:96 | over the five-colour palette, six distinct levels get black, red, orange, green, blue and then black again |
| ColorMemo.StoredValueStable | tezos_net_viz/visualize.py:63-64 | once a key is stored, every later lookup of it returns the stored value |
| Peers.Normalise | tezos_net_viz/visualize.py:196-200 | the result differs from the input exactly when the input starts with `::ffff:`, and then the input is the prefix followed by the result (exactly seven characters removed) |
| Peers.NormaliseUndoesPrefix | tezos_net_viz/visualize.py:197-200 | normalising the prefix put in front of any address gives that address back, so only one prefix is removed |
| Peers.NormaliseIdempotentIff | tezos_net_viz/visualize.py:197-200 | normalising twice equals normalising once exactly when the once-normalised address no longer carries the prefix |
| Peers.NormaliseExamples | tezos_net_viz/visualize.py:197-200 | a mapped IPv4 address loses the prefix, a doubled prefix loses one copy, and other addresses are unchanged |
| Peers.EdgeFor | tezos_net_viz/visualize.py:201-206 | the edge links the reporting node with the normalised peer; it points into the node for an incoming connection and out of it otherwise |
| Peers.EdgeDirectionFlips | tezos_net_viz/visualize.py:201-206 | flipping `incoming` reverses the edge |
| Peers.EdgesFor | visualize.py:37-44 | one edge per record, in reply order, each given by the edge rule |
| Rpc.NeighboursUrl | tezos_net_viz/visualize.py:175-176 | the neighbours URL is the node's root `http://{addr}:{port}` followed by exactly `/network/connections/` |
| Rpc.HeadUrl | tezos_net_viz/visualize.py:175-177 | the head URL is the node's root followed by exactly `/chains/main/blocks/head/` |
| Rpc.RootRoundTrip | tezos_net_viz/visualize.py:37 | the root determines the address and port it was built from, even for addresses containing colons |
| Rpc.UrlsDiffer | tezos_net_viz/visualize.py:38-39 | a node's two URLs never coincide |
| Rpc.NeighboursUrlInjective | tezos_net_viz/visualize.py:175-176 | equal neighbour URLs come from the same address and port |
| Rpc.SequentialUrlIsDefaultPort | visualize.py:10 | the sequential crawler's URL is the traverser's neighbours URL on the default port 8732 |
| Decimal.NatRoundTrip | tezos_net_viz/visualize.py:192 | the decimal rendering of a natural number parses back to that number |
| Decimal.IntRoundTrip | tezos_net_viz/visualize.py:192 | the decimal rendering of any integer, with a minus sign for negatives, parses back to that integer |
| Decimal.IntToStringInjective | tezos_net_viz/visualize.py:192 | distinct integers render differently |
| DiGraph.AddNode | tezos_net_viz/visualize.py:187 | the vertex is present afterwards, it is the only new vertex, and edges and attributes are untouched |
| DiGraph.AddEdge | tezos_net_viz/visualize.py:203-206 | the edge and both endpoints are present afterwards, it is the only new edge, and attributes are untouched |
| DiGraph.AddEdgeIdempotent | tezos_net_viz/visualize.py:95 | in a strict graph, adding an edge twice equals adding it once |
| DiGraph.AddEdgeCommutes | tezos_net_viz/visualize.py:95 | edges from concurrent crawls may be added in either order with the same graph |
| DiGraph.SetAttrs | tezos_net_viz/visualize.py:190-193 | the node's attributes are replaced, and every other node's attributes and all vertices and edges stay as they were |
| DiGraph.LabelRoundTrip | tezos_net_viz/visualize.py:192 | a record label `"{addr}\|{level}"` determines its address and level, even when the address contains the separator |
| Traverser.Init | tezos_net_viz/visualize.py:88-108 | a new traverser's per-instance state satisfies the invariant |
| Traverser.StartCrawl | tezos_net_viz/visualize.py:161-165 | a task whose address is locked returns having changed nothing; otherwise the address enters `visited` and `visit_lock`, the crawl awaits the head, and nothing else changes (other crawls' phases, the graph, the colour map, the pass count and the configuration are kept) |
| Traverser.RecordHead | tezos_net_viz/visualize.py:185-193 | the node becomes a record labelled `"{addr}\|{level}"` whose colour is the colour map's entry for the level; the memo gains exactly the level, and only when the level is new; the node is the only one that gains attributes, no other node's attributes and no edge change, the crawl moves on to awaiting its connections, and nothing else in the state changes |
| Traverser.NewTasks | tezos_net_viz/visualize.py:207-208 | one task is created per record whose normalised peer is not visited, so an unvisited peer gets as many tasks as records name it; no visited peer gets a task |
| Traverser.AddConnections | tezos_net_viz/visualize.py:195-208 | adding the records' edges one at a time yields the old edges plus the edge of every record, and the old nodes plus both ends of each such edge; node attributes are untouched |
| Traverser.Discover | tezos_net_viz/visualize.py:195-208 | the records' edges and endpoints are added, tasks are created for the unvisited peers, and nothing else changes |
| Traverser.Release | tezos_net_viz/visualize.py:215-216 | the address leaves `visit_lock` and its crawl ends; every other crawl keeps its phase and nothing else changes |
| Traverser.RestartPass | tezos_net_viz/visualize.py:138-149 | the graph is written, `visited` is emptied, a crawl of the seed is scheduled, and a next pass stays pending unless in run-once mode; the graph, colour map, lock, seed and mode are kept |
| TraverserLemmas.RecordHeadKeepsInv | tezos_net_viz/visualize.py:189-193 | recording a head keeps every node's colour equal to the memo's colour for its level |
| TraverserLemmas.DiscoverKeepsGraph | tezos_net_viz/visualize.py:195-208 | adding a reply's edges keeps the graph well formed and the invariant |
| TraverserLemmas.NextPreservesInv | tezos_net_viz/visualize.py:138-216 | every enabled step keeps the invariant |
| TraverserLemmas.RunPreservesInv | tezos_net_viz/visualize.py:138-216 | every state of every interleaving satisfies the invariant |
| Traverser.Next | tezos_net_viz/visualize.py:138-216 | a task start consumes its task; a head reply records the node and moves its crawl on to the connections; a connections reply, a timeout and any other exception add the edges of the records processed and then release the address (the `finally` clause); a restart empties `visited` and writes the graph |
| TraverserLemmas.AbortEnabled | tezos_net_viz/visualize.py:180-216 | a running crawl can stop early exactly as follows: a timeout only with no record processed, and another exception either with none processed or, once the head is recorded, after any prefix of the connection records |
| TraverserLemmas.VisitLockDiscipline | tezos_net_viz/visualize.py:161-216 | only the guard adds to `visit_lock`; every way a crawl ends (done, timeout, other exception) removes the address; no other step touches the lock |
| TraverserLemmas.GuardedBeginIsNoOp | tezos_net_viz/visualize.py:162-163 | a task for a locked address only consumes itself |
| TraverserLemmas.NextGrows | tezos_net_viz/visualize.py:138-216 | no step removes a vertex or an edge, and the colour map only gains entries |
| TraverserLemmas.RunGrows | tezos_net_viz/visualize.py:138-216 | across any run, restarts included, the graph and colour map only grow |
| TraverserLemmas.VisitedResetOnlyByRestart | tezos_net_viz/visualize.py:145 | only a new pass shrinks `visited`, and it empties it; every other step keeps it |
| TraverserLemmas.ScheduleIffUnvisited | tezos_net_viz/visualize.py:201-208 | each record adds its edge, and creates a task for its peer exactly when the peer is not visited |
| TraverserLemmas.EqualLevelsEqualColours | tezos_net_viz/visualize.py:193 | two crawled nodes at the same level have the same colour |
| TraverserLemmas.ColoursFromPalette | tezos_net_viz/visualize.py:96 | every node colour comes from the five-colour palette |
| TraverserLemmas.ColoursStableAcrossPasses | tezos_net_viz/visualize.py:96-101 | a node crawled later at the same level as an earlier node, in this pass or any later one, gets the same colour |
| TraverserLemmas.RunOncePasses | tezos_net_viz/visualize.py:147-149 | in run-once mode, no more passes start than were pending |
| TraverserLemmas.RunOnceSinglePass | tezos_net_viz/visualize.py:147-149 | a traverser started in run-once mode runs at most one pass |
| TraverserLemmas.ContinuousModeKeepsRefreshing | tezos_net_viz/visualize.py:147-149 | in continuous mode, a next pass is always pending |
| TraverserLemmas.DuplicateCrawlInOnePass | tezos_net_viz/visualize.py:161-208 | a peer listed twice gets two tasks, and can be crawled twice in one pass once its first crawl ends |
| Worklist.GetNeighbours | visualize.py:30-46 | on success the edges of the delivered records, in order, each by the edge rule; a timeout yields no edge and raises nothing; any other failure propagates |
| Worklist.TimeoutDeliversNothing | visualize.py:20-25 | a timed-out fetch raises nothing and yields no edge, because the whole body is awaited before the first record is yielded; the crawl carries on |
| Worklist.UniverseIsClosed | visualize.py:49-66 | a finite set of addresses holds the seed, and no fetched edge leaves it, so the crawl terminates |
| Worklist.EdgesAlongSource | visualize.py:59-60 | every edge in the graph was delivered by some fetched node |
| Worklist.EdgesAlongComplete | visualize.py:59-60 | every edge a fetched node delivered is in the graph |
| Worklist.EnqueueKeepsInv | visualize.py:61-64 | queueing an unvisited endpoint of a fetched edge keeps the queue bookkeeping: queued once, visited exactly when queued, and found on an earlier node's edge |
| Worklist.QueueWithinUniverse | visualize.py:55-64 | there are never more queued addresses than the universe holds |
| Worklist.Enqueue | visualize.py:62-64 | the node is marked visited and appended to the queue |
| Worklist.VisitEdge | visualize.py:61-64 | both endpoints of the edge are visited afterwards; the queue is the old queue followed by the endpoints not queued before, source before target, each once |
| Worklist.VisitEdges | visualize.py:59-64 | after the first n edges of a reply, the queue is the old queue followed by the first sightings among their endpoints, edge by edge and source before target, and the bookkeeping holds |
| Worklist.AddEdges | visualize.py:59-64 | the graph gains exactly the reply's edges, both ends of every edge are visited, the queue grows by the first sightings among the reply's endpoints in reply order, and the bookkeeping holds |
| Worklist.OrderStep | visualize.py:57-64 | fetching the head of the queue and queueing the new endpoints of its reply keeps fetched-then-queued equal to the seed followed by the first sightings among all endpoints delivered so far |
| Worklist.ProcessReply | visualize.py:58-64 | processing the reply of the head of the queue appends it to the fetch order and keeps the crawl's invariant |
| Worklist.StopPoint | visualize.py:57-58 | when the head of the queue raises, the crawl stops there: it is the next address of the first-sight scan after the fetched ones, none of which raised; each address up to it other than the seed was found on an edge of an address fetched before it |
| Worklist.NoStopBeyondReach | visualize.py:53-58 | a crawl cannot stop at an address that no earlier fetch delivered: with an empty reply from the seed, the failure of a peer of some other node is impossible whatever the discoverers |
| Worklist.FetchNext | visualize.py:57-64 | one turn of the loop appends the head of the queue to the fetch order and keeps the crawl's invariant, or fails exactly at the head of the queue, whose fetch raised |
| Worklist.FinishedCrawl | visualize.py:57-65 | with the queue empty, the fetch count equals \|visited\| and `visited` is closed under the fetched edges |
| Worklist.MakeGraph | visualize.py:49-66 | the crawl terminates. On success: the seed is fetched first; every visited address is fetched exactly once; the fetch order is the seed followed by the endpoints of the fetched replies, reply by reply, edge by edge and source before target, each address at its first appearance (a FIFO queue); the graph's edges are exactly the fetched edges; `visited` is closed under them; each non-seed address was found on an edge of an address fetched before it, with discoverers in non-decreasing order. On failure: the crawl stopped at the first address, in that same fetch order, whose fetch raised; every address fetched before it succeeded, and each address up to the failing one was found on an edge of an address fetched before it |
| Countdown.SleepIterator | tezos_net_viz/webapp.py:12-19 | the generator stops by itself exactly when the limit is a non-negative count, after exactly that many rounds. No limit, or a negative one, never stops. Every round is one yield followed by exactly one sleep |
| Countdown.ServeDotPacing | tezos_net_viz/webapp.py:59 | `serve_dot` never stops and sleeps five seconds after every frame |

## Left out

- Network I/O: `fetch`, `fetch_iterator`, the aiohttp session and its timeout configuration. Replies and failures are step parameters (`Traverser`) or a fixed map from address to listing (`Worklist`).
- JSON decoding: a connection record is taken as its `id_point.addr` and `incoming` fields. A reply of the wrong shape is one of the non-timeout exceptions.
- Traverser levels: `header.level` is modelled as an integer, as a Tezos node returns it, although the source annotates `Level` as a string.
- Graphviz and pygraphviz serialisation, `graph.dot` writes, and `g.render()`. Writing the graph is the `written` snapshot.
- The web viewer: routes, HTML, websockets, file reads, and the clock behind `asyncio.sleep`. A sleep is an event in the trace.
- `main` and argument parsing in both files, `NodeTraverser.start`, `finalize_tasks`, the KeyboardInterrupt shutdown path, `loop.close`, and `setup.py`. These are process wiring around the core.
- asyncio scheduling order: any interleaving of task steps is allowed, so the lemmas hold for every order.
- `Traverser.Run`: a run is a finite sequence of steps, so properties of runs cover finite prefixes of the process only.
- Traverser at-most-once crawling per pass: not claimed, because the code does not guarantee it. `TraverserLemmas.DuplicateCrawlInOnePass` shows the duplicate.
- `visit_lock` ⊆ `visited`: not claimed, because a new pass empties `visited` while crawls are still running.
- Countdown.SleepIterator: a never-ending run is described by its first `fuel` rounds only.
- Worklist.MakeGraph: a node's listing is fixed for the whole crawl. This is harmless because each address is fetched at most once.
- Worklist.AddEdges: edges are added to the graph set in one step after the endpoint bookkeeping. This matches the per-edge `g.edge` calls because the strict graph is a set.
- Traverser.Init: `NodeTraverser.__init__` takes mutable default arguments for `graph`, `color_map` and `visited` (tezos_net_viz/visualize.py:94-97), which every instance built without them shares. The model gives each traverser its own state. This matches `main`, which builds a single traverser.

=== FILE: colormemo.dfy ===
/**
 * `IncrementingDefaultDict`: a dictionary whose missing keys are filled in,
 * on first lookup, with the next value of a cycled list of defaults. The
 * traverser uses it to give every distinct head level a colour.
 */
module ColorMemo {
  import opened Common

  /** The `Color` literal type, in declaration order. */
  datatype Color = Black | Red | Orange | Green | Blue

  /** `COLORS`, the cycled defaults of the traverser's colour map. */
  const Palette: seq<Color> := [Black, Red, Orange, Green, Blue]

  /**
   * The dictionary as the insertion-ordered list of its key/value pairs,
   * the list the `itertools.cycle` iterator repeats, and how many values
   * that iterator has handed out so far.
   */
  datatype Memo<K, V> = Memo(entries: seq<(K, V)>, defaults: seq<V>, drawn: nat)

  /** `next(cycle(defaults))` on an empty list raises StopIteration. */
  datatype MemoError = DefaultsExhausted

  /** A looked-up value together with the dictionary after the lookup. */
  datatype Lookup<K, V> = Lookup(value: V, memo: Memo<K, V>)

  /**
   * The value `itertools.cycle(defaults)` hands out at its k-th call
   * (counting from 0): the list is repeated end to end.
   */
  function Cycled<V>(defaults: seq<V>, k: nat): V
    requires 0 < |defaults|
    decreases k
  {
    if k < |defaults| then defaults[k] else Cycled(defaults, k - |defaults|)
  }

  /** The k-th value of the cycle is the default at position k mod |defaults|. */
  lemma CycledIsMod<V>(defaults: seq<V>, k: nat)
    requires 0 < |defaults|
    ensures Cycled(defaults, k) == defaults[k % |defaults|]
  {
    var n := |defaults|;
    assert k == (k / n) * n + k % n;
    CycledPeriodic(defaults, k / n, k % n);
  }

  /** Going once more round the list leads to the same value. */
  lemma {:induction false} CycledPeriodic<V>(defaults: seq<V>, q: nat, r: nat)
    requires r < |defaults|
    ensures Cycled(defaults, q * |defaults| + r) == defaults[r]
    decreases q
  {
    if 0 < q {
      assert q * |defaults| + r - |defaults| == (q - 1) * |defaults| + r;
      CycledPeriodic(defaults, q - 1, r);
    }
  }

  /** Every value of the cycle is one of the defaults. */
  lemma CycledInDefaults<V>(defaults: seq<V>, k: nat)
    requires 0 < |defaults|
    ensures Cycled(defaults, k) in defaults
  {
    CycledIsMod(defaults, k);
  }

  /** The dictionary's keys in insertion order. */
  function Keys<K, V>(m: Memo<K, V>): (ks: seq<K>)
    ensures |ks| == |m.entries|
    ensures forall i :: 0 <= i < |ks| ==> ks[i] == m.entries[i].0
  {
    seq(|m.entries|, i requires 0 <= i < |m.entries| => m.entries[i].0)
  }

  /** The position of `key` among the entries, the first one holding it. */
  function Find<K(==), V>(entries: seq<(K, V)>, key: K): (r: Option<nat>)
    ensures r.Some? ==> r.value < |entries| && entries[r.value].0 == key
    ensures r.Some? ==> forall j :: 0 <= j < r.value ==> entries[j].0 != key
    ensures r.None? ==> forall j :: 0 <= j < |entries| ==> entries[j].0 != key
  {
    if |entries| == 0 then None
    else if entries[0].0 == key then Some(0)
    else
      match Find(entries[1..], key)
      case None => None
      case Some(i) => Some(i + 1)
  }

  /** The value stored for `key`, if any (`dict.__getitem__` without the default). */
  function ValueOf<K(==), V>(m: Memo<K, V>, key: K): (r: Option<V>)
    ensures r.Some? <==> key in Keys(m)
  {
    match Find(m.entries, key)
    case None => None
    case Some(i) => Some(m.entries[i].1)
  }

  /**
   * The invariant of every dictionary built by lookups alone: each key is
   * stored once, and the i-th key inserted holds the i-th value of the cycle.
   */
  ghost predicate Valid<K, V>(m: Memo<K, V>)
  {
    && m.drawn == |m.entries|
    && (0 < |m.entries| ==> 0 < |m.defaults|)
    && (forall i, j :: 0 <= i < j < |m.entries| ==> m.entries[i].0 != m.entries[j].0)
    && (forall i :: 0 <= i < |m.entries| ==> m.entries[i].1 == Cycled(m.defaults, i))
  }

  /** The later dictionary is the earlier one with entries appended, over the same defaults. */
  ghost predicate Extends<K, V>(m: Memo<K, V>, m': Memo<K, V>)
  {
    && m'.defaults == m.defaults
    && m.drawn <= m'.drawn
    && StartsWith(m'.entries, m.entries)
  }

  /** The constructor: an empty dictionary over a fresh cycle of `defaults`. */
  function New<K, V>(defaults: seq<V>): (m: Memo<K, V>)
    ensures Valid(m) && Keys(m) == []
  {
    Memo([], defaults, 0)
  }

  /**
   * `__getitem__`: a present key returns its value and changes nothing; an
   * absent key is appended with the next value of the cycle, and that value
   * is returned; with no defaults at all the lookup of an absent key raises.
   * What a lookup promises is stated by `GetSpec`.
   */
  function Get<K(==), V>(m: Memo<K, V>, key: K): (r: Result<Lookup<K, V>, MemoError>)
    ensures r.Failure? <==> Find(m.entries, key).None? && |m.defaults| == 0
    ensures r.Success? ==> r.value.memo.defaults == m.defaults
  {
    match Find(m.entries, key)
    case Some(i) => Success(Lookup(m.entries[i].1, m))
    case None =>
      if |m.defaults| == 0 then Failure(DefaultsExhausted)
      else
        var v := Cycled(m.defaults, m.drawn);
        Success(Lookup(v, Memo(m.entries + [(key, v)], m.defaults, m.drawn + 1)))
  }

  /**
   * A present key returns its stored value and leaves the dictionary as it
   * was; an absent key fails exactly when there are no defaults, and
   * otherwise is appended with the value the cycle hands out at call number
   * `drawn`, which is returned; either way the dictionary only grows and now
   * holds the returned value for the key.
   */
  lemma GetSpec<K, V>(m: Memo<K, V>, key: K)
    ensures key in Keys(m) ==> Get(m, key) == Success(Lookup(ValueOf(m, key).value, m))
    ensures key !in Keys(m) ==> (Get(m, key).Success? <==> 0 < |m.defaults|)
    ensures Get(m, key).Success? ==> Extends(m, Get(m, key).value.memo) && ValueOf(Get(m, key).value.memo, key) == Some(Get(m, key).value.value)
    ensures Get(m, key).Success? && key !in Keys(m) ==>
              && Get(m, key).value.value == Cycled(m.defaults, m.drawn)
              && Get(m, key).value.memo.drawn == m.drawn + 1
              && Keys(Get(m, key).value.memo) == Keys(m) + [key]
  {
    if Find(m.entries, key).None? && 0 < |m.defaults| {
      var v := Cycled(m.defaults, m.drawn);
      var m' := Memo(m.entries + [(key, v)], m.defaults, m.drawn + 1);
      assert Get(m, key) == Success(Lookup(v, m'));
      assert m'.entries[..|m.entries|] == m.entries;
      FindAppended(m.entries, key, v);
    }
  }

  /** A key found nowhere in the entries is found at the entry appended for it. */
  lemma {:induction false} FindAppended<K, V>(e: seq<(K, V)>, key: K, v: V)
    requires Find(e, key).None?
    ensures Find(e + [(key, v)], key) == Some(|e|)
  {
    if 0 < |e| {
      assert (e + [(key, v)])[1..] == e[1..] + [(key, v)];
      FindAppended(e[1..], key, v);
    }
  }

  /** Appending entries never changes what an already present key maps to. */
  lemma {:induction false} FindInExtension<K, V>(e: seq<(K, V)>, e': seq<(K, V)>, key: K)
    requires StartsWith(e', e) && Find(e, key).Some?
    ensures Find(e', key) == Find(e, key)
  {
    if e[0].0 != key {
      assert e'[1..][..|e[1..]|] == e[1..];
      FindInExtension(e[1..], e'[1..], key);
    }
  }

  /** Values stored in a dictionary are the values its extensions hold for the same keys. */
  lemma ExtendsKeepsValues<K, V>(m: Memo<K, V>, m': Memo<K, V>, key: K)
    requires Extends(m, m') && key in Keys(m)
    ensures ValueOf(m', key) == ValueOf(m, key)
  {
    FindInExtension(m.entries, m'.entries, key);
  }

  /** Extension is transitive, so stored values survive any number of later lookups. */
  lemma ExtendsTransitive<K, V>(a: Memo<K, V>, b: Memo<K, V>, c: Memo<K, V>)
    requires Extends(a, b) && Extends(b, c)
    ensures Extends(a, c)
  {
    assert c.entries[..|a.entries|] == c.entries[..|b.entries|][..|a.entries|];
  }

  /** A lookup keeps the round-robin invariant. */
  lemma GetPreservesValid<K, V>(m: Memo<K, V>, key: K)
    requires Valid(m)
    requires Get(m, key).Success?
    ensures Valid(Get(m, key).value.memo)
  {
    if key !in Keys(m) {
      var v := Cycled(m.defaults, m.drawn);
      assert Get(m, key).value.memo == Memo(m.entries + [(key, v)], m.defaults, m.drawn + 1);
      AppendKeepsValid(m, key);
    }
  }

  /** Appending an absent key with the next value of the cycle keeps the round-robin invariant. */
  lemma AppendKeepsValid<K, V>(m: Memo<K, V>, key: K)
    requires Valid(m) && 0 < |m.defaults| && key !in Keys(m)
    ensures Valid(Memo(m.entries + [(key, Cycled(m.defaults, m.drawn))], m.defaults, m.drawn + 1))
  {
    var e' := m.entries + [(key, Cycled(m.defaults, m.drawn))];
    forall i, j | 0 <= i < j < |e'|
      ensures e'[i].0 != e'[j].0
    {
      assert e'[i] == m.entries[i];
      if j == |m.entries| {
        assert m.entries[i].0 == Keys(m)[i];
      } else {
        assert e'[j] == m.entries[j];
      }
    }
    forall i | 0 <= i < |e'|
      ensures e'[i].1 == Cycled(m.defaults, i)
    {
      if i < |m.entries| {
        assert e'[i] == m.entries[i];
      }
    }
  }

  /** Looks up `ks` one after another, returning the values in order and the final dictionary. */
  function GetAll<K(==), V>(m: Memo<K, V>, ks: seq<K>): Result<(seq<V>, Memo<K, V>), MemoError>
    decreases |ks|
  {
    if |ks| == 0 then Success(([], m))
    else
      match Get(m, ks[0])
      case Failure(e) => Failure(e)
      case Success(l) =>
        match GetAll(l.memo, ks[1..])
        case Failure(e) => Failure(e)
        case Success(rest) => Success(([l.value] + rest.0, rest.1))
  }

  /** A run of lookups on a non-empty cycle never fails, and the cycle stays the same. */
  lemma {:induction false} GetAllSucceeds<K, V>(m: Memo<K, V>, ks: seq<K>)
    requires 0 < |m.defaults|
    ensures GetAll(m, ks).Success? && GetAll(m, ks).value.1.defaults == m.defaults
    decreases |ks|
  {
    if |ks| > 0 {
      GetAllSucceeds(Get(m, ks[0]).value.memo, ks[1..]);
    }
  }

  /** A run of lookups keeps the round-robin invariant. */
  lemma {:induction false} GetAllValid<K, V>(m: Memo<K, V>, ks: seq<K>)
    requires Valid(m) && 0 < |m.defaults|
    ensures GetAll(m, ks).Success? && Valid(GetAll(m, ks).value.1)
    ensures GetAll(m, ks).value.1.defaults == m.defaults
    decreases |ks|
  {
    GetAllSucceeds(m, ks);
    if |ks| > 0 {
      GetPreservesValid(m, ks[0]);
      GetAllValid(Get(m, ks[0]).value.memo, ks[1..]);
    }
  }

  /** A run of lookups only appends entries. */
  lemma {:induction false} GetAllExtends<K, V>(m: Memo<K, V>, ks: seq<K>)
    requires Valid(m) && 0 < |m.defaults|
    ensures GetAll(m, ks).Success? && Extends(m, GetAll(m, ks).value.1)
    decreases |ks|
  {
    GetAllValid(m, ks);
    if |ks| > 0 {
      var l := Get(m, ks[0]).value;
      GetPreservesValid(m, ks[0]);
      GetAllExtends(l.memo, ks[1..]);
      ExtendsTransitive(m, l.memo, GetAll(l.memo, ks[1..]).value.1);
    }
  }

  /** A run of lookups appends exactly the unseen keys, in first-sight order. */
  lemma {:induction false} GetAllKeys<K, V>(m: Memo<K, V>, ks: seq<K>)
    requires Valid(m) && 0 < |m.defaults|
    ensures GetAll(m, ks).Success? && Keys(GetAll(m, ks).value.1) == Keys(m) + FirstSight(Keys(m), ks)
    decreases |ks|
  {
    GetAllValid(m, ks);
    if |ks| > 0 {
      var l := Get(m, ks[0]).value;
      GetPreservesValid(m, ks[0]);
      GetAllKeys(l.memo, ks[1..]);
      assert GetAll(m, ks).value.1 == GetAll(l.memo, ks[1..]).value.1;
      assert Keys(l.memo) + FirstSight(Keys(l.memo), ks[1..]) == Keys(m) + FirstSight(Keys(m), ks) by {
        FirstSightStep(Keys(m), ks, Keys(l.memo));
      }
    }
  }

  /**
   * A run of lookups on a non-empty cycle never fails; it keeps the earlier
   * entries and the round-robin invariant, and appends the unseen keys in
   * first-sight order.
   */
  lemma GetAllState<K, V>(m: Memo<K, V>, ks: seq<K>)
    requires Valid(m) && 0 < |m.defaults|
    ensures GetAll(m, ks).Success?
    ensures Valid(GetAll(m, ks).value.1)
    ensures Extends(m, GetAll(m, ks).value.1)
    ensures Keys(GetAll(m, ks).value.1) == Keys(m) + FirstSight(Keys(m), ks)
  {
    GetAllValid(m, ks);
    GetAllExtends(m, ks);
    GetAllKeys(m, ks);
  }

  /** Each value a run of lookups returns is the value the final dictionary holds for that key. */
  lemma {:induction false} GetAllValues<K, V>(m: Memo<K, V>, ks: seq<K>)
    requires Valid(m) && 0 < |m.defaults|
    ensures GetAll(m, ks).Success?
    ensures |GetAll(m, ks).value.0| == |ks|
    ensures forall i :: 0 <= i < |ks| ==> ValueOf(GetAll(m, ks).value.1, ks[i]) == Some(GetAll(m, ks).value.0[i])
    decreases |ks|
  {
    GetAllSucceeds(m, ks);
    if |ks| > 0 {
      var l := Get(m, ks[0]).value;
      GetPreservesValid(m, ks[0]);
      GetAllSucceeds(l.memo, ks[1..]);
      var rest := GetAll(l.memo, ks[1..]).value;
      var r := GetAll(m, ks).value;
      assert r.0 == [l.value] + rest.0 && r.1 == rest.1;
      assert ValueOf(r.1, ks[0]) == Some(r.0[0]) by {
        GetAllExtends(l.memo, ks[1..]);
        ExtendsKeepsValues(l.memo, r.1, ks[0]);
      }
      GetAllValues(l.memo, ks[1..]);
      forall i | 1 <= i < |ks|
        ensures ValueOf(r.1, ks[i]) == Some(r.0[i])
      {
        assert ks[i] == ks[1..][i - 1] && r.0[i] == rest.0[i - 1];
      }
    }
  }

  /** In a valid dictionary the j-th inserted key holds the default at position j mod |defaults|. */
  lemma ValidValue<K, V>(m: Memo<K, V>, j: nat)
    requires Valid(m) && j < |m.entries|
    ensures ValueOf(m, Keys(m)[j]) == Some(Cycled(m.defaults, j))
  {
    var f := Find(m.entries, Keys(m)[j]);
    assert f == Some(j);
  }

  /**
   * Starting from a fresh dictionary, the value returned for a key is the
   * default at position k mod |defaults|, where k is the number of distinct
   * keys looked up before that key was first seen.
   */
  lemma RoundRobinFromNew<K, V>(defaults: seq<V>, ks: seq<K>)
    requires 0 < |defaults|
    ensures GetAll(New<K, V>(defaults), ks).Success?
    ensures Keys(GetAll(New<K, V>(defaults), ks).value.1) == FirstSight([], ks)
    ensures |GetAll(New<K, V>(defaults), ks).value.0| == |ks|
    ensures forall i, j :: 0 <= i < |ks| && 0 <= j < |FirstSight([], ks)| && FirstSight([], ks)[j] == ks[i] ==>
              GetAll(New<K, V>(defaults), ks).value.0[i] == defaults[j % |defaults|]
  {
    var m0 := New<K, V>(defaults);
    GetAllState(m0, ks);
    GetAllValues(m0, ks);
    var r := GetAll(m0, ks).value;
    assert Keys(m0) + FirstSight(Keys(m0), ks) == FirstSight([], ks);
    forall i, j | 0 <= i < |ks| && 0 <= j < |FirstSight([], ks)| && FirstSight([], ks)[j] == ks[i]
      ensures r.0[i] == defaults[j % |defaults|]
    {
      CycledIsMod(defaults, j);
      ValidValue(r.1, j);
    }
  }

  /** From a fresh dictionary, pairwise distinct keys are stored in order with the defaults in cycle order. */
  lemma DistinctKeysFromNew<K, V>(defaults: seq<V>, ks: seq<K>)
    requires 0 < |defaults| && Distinct(ks)
    ensures GetAll(New<K, V>(defaults), ks).Success?
    ensures var r := GetAll(New<K, V>(defaults), ks).value;
      && |r.0| == |ks| && |r.1.entries| == |ks|
      && (forall i :: 0 <= i < |ks| ==> r.0[i] == Cycled(defaults, i))
      && (forall i :: 0 <= i < |ks| ==> r.1.entries[i] == (ks[i], Cycled(defaults, i)))
  {
    var m0 := New<K, V>(defaults);
    GetAllState(m0, ks);
    GetAllValues(m0, ks);
    FirstSightFresh([], ks);
    var r := GetAll(m0, ks).value;
    assert Keys(r.1) == ks;
    forall i | 0 <= i < |ks|
      ensures r.0[i] == Cycled(defaults, i)
    {
      ValidValue(r.1, i);
    }
  }

  /** The docstring's example: defaults [3, 4] give 1 -> 3, 2 -> 4, 3 -> 3. */
  lemma DocstringExample(defaults: seq<int>, ks: seq<int>)
    requires defaults == [3, 4] && ks == [1, 2, 3]
    ensures GetAll(New<int, int>(defaults), ks).Success?
    ensures GetAll(New<int, int>(defaults), ks).value.0 == [3, 4, 3]
    ensures GetAll(New<int, int>(defaults), ks).value.1.entries == [(1, 3), (2, 4), (3, 3)]
  {
    DistinctKeysFromNew(defaults, ks);
    var r := GetAll(New<int, int>(defaults), ks).value;
    assert r.0[0] == 3 && r.0[1] == 4 && r.0[2] == 3;
    assert r.1.entries[0] == (1, 3) && r.1.entries[1] == (2, 4) && r.1.entries[2] == (3, 3);
  }

  /**
   * Pairwise distinct keys none of which is stored yet get the next values
   * of the cycle, in order: the i-th gets the value the cycle hands out at
   * call number drawn + i.
   */
  lemma FreshKeys<K, V>(m: Memo<K, V>, ks: seq<K>)
    requires Valid(m) && 0 < |m.defaults|
    requires Distinct(ks) && forall i :: 0 <= i < |ks| ==> ks[i] !in Keys(m)
    ensures GetAll(m, ks).Success?
    ensures var r := GetAll(m, ks).value;
      && |r.0| == |ks| && Keys(r.1) == Keys(m) + ks && Valid(r.1) && r.1.defaults == m.defaults
      && forall i :: 0 <= i < |ks| ==> r.0[i] == Cycled(m.defaults, m.drawn + i)
  {
    GetAllValid(m, ks);
    var r := GetAll(m, ks).value;
    assert Keys(r.1) == Keys(m) + ks by {
      GetAllKeys(m, ks);
      FirstSightFresh(Keys(m), ks);
    }
    assert |r.0| == |ks| by {
      GetAllValues(m, ks);
    }
    forall i | 0 <= i < |ks|
      ensures r.0[i] == Cycled(m.defaults, m.drawn + i)
    {
      FreshKeyValue(m, ks, i);
    }
  }

  /** One key of `FreshKeys`: the i-th fresh key sits at position drawn + i and holds that value of the cycle. */
  lemma FreshKeyValue<K, V>(m: Memo<K, V>, ks: seq<K>, i: nat)
    requires Valid(m) && 0 < |m.defaults| && i < |ks|
    requires GetAll(m, ks).Success? && Keys(GetAll(m, ks).value.1) == Keys(m) + ks
    ensures |GetAll(m, ks).value.0| == |ks|
    ensures GetAll(m, ks).value.0[i] == Cycled(m.defaults, m.drawn + i)
  {
    GetAllValid(m, ks);
    GetAllValues(m, ks);
    var r := GetAll(m, ks).value;
    var k := m.drawn + i;
    assert Keys(r.1)[k] == ks[i];
    ValidValue(r.1, k);
  }

  /** Six distinct levels looked up in a fresh colour map use up the five colours and wrap back to black. */
  lemma PaletteWraps<K>(ks: seq<K>)
    requires Distinct(ks) && |ks| == 6
    ensures GetAll(New<K, Color>(Palette), ks).Success?
    ensures GetAll(New<K, Color>(Palette), ks).value.0 == [Black, Red, Orange, Green, Blue, Black]
  {
    DistinctKeysFromNew<K, Color>(Palette, ks);
    var r := GetAll(New<K, Color>(Palette), ks).value.0;
    assert r[0] == Cycled(Palette, 0) && r[1] == Cycled(Palette, 1) && r[2] == Cycled(Palette, 2);
    assert r[3] == Cycled(Palette, 3) && r[4] == Cycled(Palette, 4) && r[5] == Cycled(Palette, 5);
  }

  /** Once stored, a value is what every later lookup of the same key returns. */
  lemma StoredValueStable<K, V>(m: Memo<K, V>, ks: seq<K>, key: K)
    requires Valid(m) && 0 < |m.defaults| && key in Keys(m)
    ensures GetAll(m, ks).Success? && |GetAll(m, ks).value.0| == |ks|
    ensures forall i :: 0 <= i < |ks| && ks[i] == key ==> Some(GetAll(m, ks).value.0[i]) == ValueOf(m, key)
  {
    GetAllState(m, ks);
    GetAllValues(m, ks);
    ExtendsKeepsValues(m, GetAll(m, ks).value.1, key);
  }
}

=== FILE: common.dfy ===
/** Failure-carrying result types and the sequence helpers shared by the crawler model. */
module Common {

  datatype Option<+T> = None | Some(value: T)

  /** The outcome of an operation that can raise: a value, or the error it raises. */
  datatype Result<+R, +E> = Success(value: R) | Failure(error: E)

  /** True when the elements of `s` are pairwise different. */
  predicate Distinct<T(==)>(s: seq<T>)
  {
    forall i, j :: 0 <= i < j < |s| ==> s[i] != s[j]
  }

  /** Python's `s.startswith(p)`. */
  predicate StartsWith<T(==)>(s: seq<T>, p: seq<T>)
  {
    |p| <= |s| && s[..|p|] == p
  }

  /** The position of the last occurrence of `c` in `s`, like Python's `s.rfind(c)`. */
  function LastIndexOf<T(==)>(s: seq<T>, c: T): (r: Option<nat>)
    ensures r.Some? ==> r.value < |s| && s[r.value] == c
    ensures r.Some? ==> forall k :: r.value < k < |s| ==> s[k] != c
    ensures r.None? ==> forall k :: 0 <= k < |s| ==> s[k] != c
  {
    if |s| == 0 then None
    else if s[|s| - 1] == c then Some(|s| - 1)
    else LastIndexOf(s[..|s| - 1], c)
  }

  /**
   * Splits `s` around the last occurrence of `c`: the part before it and the
   * part after it, or None when `c` does not occur.
   */
  function SplitLast<T(==)>(s: seq<T>, c: T): Option<(seq<T>, seq<T>)>
  {
    match LastIndexOf(s, c)
    case None => None
    case Some(k) => Some((s[..k], s[k + 1..]))
  }

  /** Joining two parts with a separator that the second part does not contain is undone by SplitLast. */
  lemma SplitLastJoin<T>(a: seq<T>, c: T, b: seq<T>)
    requires forall k :: 0 <= k < |b| ==> b[k] != c
    ensures SplitLast(a + [c] + b, c) == Some((a, b))
  {
    var s := a + [c] + b;
    assert s[|a|] == c;
    var r := LastIndexOf(s, c);
    assert r.Some?;
    assert r.value == |a|;
    assert s[..|a|] == a && s[|a| + 1..] == b;
  }

  /** The elements of a sequence, as a set. */
  function Elements<T>(s: seq<T>): set<T>
  {
    set x | x in s
  }

  /** A sequence without repetitions has as many elements as its length. */
  lemma {:induction false} DistinctCard<T>(s: seq<T>)
    requires Distinct(s)
    ensures |Elements(s)| == |s|
  {
    if |s| > 0 {
      var init := s[..|s| - 1];
      assert Distinct(init);
      DistinctCard(init);
      assert Elements(s) == Elements(init) + {s[|s| - 1]};
      assert s[|s| - 1] !in Elements(init);
    }
  }

  /** The keys of `ks` not in `seen`, each once, in order of first occurrence. */
  function FirstSight<K(==)>(seen: seq<K>, ks: seq<K>): seq<K>
    decreases |ks|
  {
    if |ks| == 0 then []
    else if ks[0] in seen then FirstSight(seen, ks[1..])
    else [ks[0]] + FirstSight(seen + [ks[0]], ks[1..])
  }

  /** One key of a first-sight scan: an unseen key moves into `seen`, a seen one is skipped. */
  lemma FirstSightStep<K>(seen: seq<K>, ks: seq<K>, seen': seq<K>)
    requires 0 < |ks|
    requires seen' == if ks[0] in seen then seen else seen + [ks[0]]
    ensures seen' + FirstSight(seen', ks[1..]) == seen + FirstSight(seen, ks)
  {
    if ks[0] !in seen {
      assert seen + ([ks[0]] + FirstSight(seen', ks[1..])) == seen' + FirstSight(seen', ks[1..]);
    }
  }

  /** Keys that are pairwise distinct and all unseen are kept in full. */
  lemma {:induction false} FirstSightFresh<K>(seen: seq<K>, ks: seq<K>)
    requires Distinct(ks) && forall i :: 0 <= i < |ks| ==> ks[i] !in seen
    ensures FirstSight(seen, ks) == ks
    decreases |ks|
  {
    if |ks| > 0 {
      forall i | 0 <= i < |ks[1..]|
        ensures ks[1..][i] !in seen + [ks[0]]
      {
        assert ks[1..][i] == ks[i + 1] != ks[0];
      }
      FirstSightFresh(seen + [ks[0]], ks[1..]);
    }
  }

  /** A first-sight scan loses nothing: every scanned key is either already seen or kept. */
  lemma {:induction false} FirstSightCovers<K>(seen: seq<K>, ks: seq<K>, x: K)
    requires x in ks
    ensures x in seen + FirstSight(seen, ks)
    decreases |ks|
  {
    if ks[0] != x {
      assert x in ks[1..];
      FirstSightCovers(if ks[0] in seen then seen else seen + [ks[0]], ks[1..], x);
      if ks[0] !in seen {
        assert x in (seen + [ks[0]]) + FirstSight(seen + [ks[0]], ks[1..]);
      }
    }
  }

  /** Scanning `xs` and then `ys` is one scan of `xs + ys`: the second part starts from what the first saw. */
  lemma {:induction false} FirstSightAppend<K>(seen: seq<K>, xs: seq<K>, ys: seq<K>)
    ensures FirstSight(seen, xs + ys) == FirstSight(seen, xs) + FirstSight(seen + FirstSight(seen, xs), ys)
    decreases |xs|
  {
    if |xs| == 0 {
      assert xs + ys == ys && seen + [] == seen;
    } else {
      assert (xs + ys)[0] == xs[0] && (xs + ys)[1..] == xs[1..] + ys;
      if xs[0] in seen {
        FirstSightAppend(seen, xs[1..], ys);
      } else {
        var seen' := seen + [xs[0]];
        FirstSightAppend(seen', xs[1..], ys);
        assert seen + ([xs[0]] + FirstSight(seen', xs[1..])) == seen' + FirstSight(seen', xs[1..]);
      }
    }
  }
}

=== FILE: countdown.dfy ===
/**
 * `sleep_iterator`, the pacing generator of the web viewer: it yields, then
 * sleeps, for as long as `limit` is truthy or absent, counting a truthy
 * limit down by one per round. The sleep is an event in the trace; the
 * clock itself is not modelled.
 */
module Countdown {
  import opened Common

  /** What the generator does, in order: hand control to the consumer, or sleep for some seconds. */
  datatype Event = Yield | Sleep(seconds: int)

  /** The default pause between two rounds, in seconds. */
  const DefaultSleepTime: int := 5

  /** The loop condition `limit or (limit is None)`: an absent limit, or any non-zero one. */
  predicate Continues(limit: Option<int>)
  {
    limit.None? || limit.value != 0
  }

  /** A trace made of `rounds` rounds of one yield followed by exactly one sleep of `seconds`. */
  ghost predicate Rounds(trace: seq<Event>, rounds: nat, seconds: int)
  {
    && |trace| == 2 * rounds
    && forall i :: 0 <= i < |trace| ==> trace[i] == if i % 2 == 0 then Yield else Sleep(seconds)
  }

  /** The generator stops by itself exactly when the limit is a number in `0..fuel`. */
  predicate StopsWithin(limit: Option<int>, fuel: nat)
  {
    limit.Some? && 0 <= limit.value <= fuel
  }

  /**
   * Drives the generator for at most `fuel` rounds. It stops by itself
   * (`finished`) exactly when the limit is a count of at most `fuel`, and
   * then after exactly that many rounds; with no limit, or a negative one,
   * it is still running after all `fuel` rounds. Every round is one yield
   * followed by one sleep of `sleepTime`.
   */
  method SleepIterator(limit: Option<int>, sleepTime: int, fuel: nat) returns (trace: seq<Event>, finished: bool)
    ensures finished <==> StopsWithin(limit, fuel)
    ensures finished ==> Rounds(trace, limit.value, sleepTime)
    ensures !finished ==> Rounds(trace, fuel, sleepTime)
  {
    var current := limit;
    var rounds: nat := 0;
    trace := [];
    while Continues(current) && rounds < fuel
      invariant rounds <= fuel
      invariant Rounds(trace, rounds, sleepTime)
      invariant current.None? <==> limit.None?
      invariant limit.Some? && 0 <= limit.value ==> rounds <= limit.value && current == Some(limit.value - rounds)
      invariant limit.Some? && limit.value < 0 ==> current == Some(limit.value - rounds)
    {
      trace := trace + [Yield, Sleep(sleepTime)];
      if current.Some? && current.value != 0 {
        current := Some(current.value - 1);
      }
      rounds := rounds + 1;
    }
    finished := !Continues(current);
  }

  /** `serve_dot` drives the generator with no limit and the default pause: it never stops, sleeping five seconds after every frame. */
  method ServeDotPacing(fuel: nat) returns (trace: seq<Event>)
    ensures |trace| == 2 * fuel
    ensures forall i :: 0 <= i < |trace| ==> (trace[i] == Yield <==> i % 2 == 0)
    ensures forall i :: 0 <= i < |trace| && i % 2 == 1 ==> trace[i] == Sleep(5)
  {
    var finished;
    trace, finished := SleepIterator(None, DefaultSleepTime, fuel);
  }
}

=== FILE: decimal.dfy ===
/**
 * Decimal rendering of integers, as Python's `str(int)` and f-string
 * interpolation print them, together with the parser that undoes it.
 */
module Decimal {
  import opened Common

  predicate IsDigit(c: char)
  {
    '0' <= c <= '9'
  }

  predicate AllDigits(s: string)
  {
    forall i :: 0 <= i < |s| ==> IsDigit(s[i])
  }

  function DigitChar(d: nat): (c: char)
    requires d < 10
    ensures IsDigit(c) && c as int - '0' as int == d
  {
    ('0' as int + d) as char
  }

  function DigitValue(c: char): (d: nat)
    requires IsDigit(c)
    ensures d < 10 && DigitChar(d) == c
  {
    c as int - '0' as int
  }

  /** The shortest decimal spelling of `n`: no sign, no leading zeros. */
  function NatToString(n: nat): (s: string)
    ensures 0 < |s| && AllDigits(s)
    ensures s[0] == '0' ==> n == 0
  {
    if n < 10 then [DigitChar(n)] else NatToString(n / 10) + [DigitChar(n % 10)]
  }

  /** The value of a string of digits read in base ten. */
  function DigitsValue(s: string): nat
    requires AllDigits(s)
  {
    if |s| == 0 then 0 else DigitsValue(s[..|s| - 1]) * 10 + DigitValue(s[|s| - 1])
  }

  function ParseNat(s: string): (r: Option<nat>)
    ensures r.Some? <==> 0 < |s| && AllDigits(s)
  {
    if 0 < |s| && AllDigits(s) then Some(DigitsValue(s)) else None
  }

  /** Python's `str(i)`: a minus sign in front of the magnitude for negative values. */
  function IntToString(i: int): (s: string)
    ensures 0 < |s|
    ensures forall k :: 0 <= k < |s| ==> IsDigit(s[k]) || s[k] == '-'
  {
    if i < 0 then "-" + NatToString(-i) else NatToString(i)
  }

  function ParseInt(s: string): Option<int>
  {
    if 0 < |s| && s[0] == '-' then
      match ParseNat(s[1..])
      case Some(n) => var m: int := n; Some(0 - m)
      case None => None
    else
      match ParseNat(s)
      case Some(n) => Some(n)
      case None => None
  }

  lemma {:induction false} NatRoundTrip(n: nat)
    ensures ParseNat(NatToString(n)) == Some(n)
  {
    var s := NatToString(n);
    if n < 10 {
      assert s == [DigitChar(n)] && s[..|s| - 1] == [];
      assert DigitsValue(s) == DigitValue(s[0]) == n;
    } else {
      NatRoundTrip(n / 10);
      assert s[..|s| - 1] == NatToString(n / 10);
    }
  }

  /** Reading back the decimal spelling of any integer yields that integer. */
  lemma IntRoundTrip(i: int)
    ensures ParseInt(IntToString(i)) == Some(i)
  {
    var s := IntToString(i);
    if i < 0 {
      NatRoundTrip(-i);
      assert s[1..] == NatToString(-i);
    } else {
      NatRoundTrip(i);
    }
  }

  /** The spelling is injective: different integers print differently. */
  lemma IntToStringInjective(i: int, j: int)
    ensures IntToString(i) == IntToString(j) ==> i == j
  {
    IntRoundTrip(i);
    IntRoundTrip(j);
  }
}

=== FILE: digraph.dfy ===
/**
 * The strict directed graph the traverser fills in: vertices, edges without
 * duplicates, and the shape/label/colour attributes of crawled nodes.
 */
module DiGraph {
  import opened Common
  import opened Decimal
  import opened Peers
  import opened ColorMemo

  /** The attributes the traverser sets on a node it reached; `text` is its `label` attribute. */
  datatype NodeAttrs = NodeAttrs(shape: string, text: string, color: Color)

  /** A strict digraph: adding a vertex or an edge that is already there changes nothing. */
  datatype Graph = Graph(nodes: set<Address>, edges: set<Edge>, attrs: map<Address, NodeAttrs>)

  /** The shape of crawled nodes, whose two-field label is drawn as a record. */
  const RecordShape: string := "record"

  function Empty(): (g: Graph)
    ensures WellFormed(g)
  {
    Graph({}, {}, map[])
  }

  /** Every edge joins vertices of the graph, and only vertices carry attributes. */
  ghost predicate WellFormed(g: Graph)
  {
    && (forall e :: e in g.edges ==> e.source in g.nodes && e.target in g.nodes)
    && (forall a :: a in g.attrs ==> a in g.nodes)
  }

  /** Nothing of `g` is missing from `g'`. */
  ghost predicate Grows(g: Graph, g': Graph)
  {
    g.nodes <= g'.nodes && g.edges <= g'.edges
  }

  /** `add_node`: the vertex is present afterwards; edges and attributes are untouched. */
  function AddNode(g: Graph, a: Address): (r: Graph)
    ensures WellFormed(g) ==> WellFormed(r)
    ensures Grows(g, r) && a in r.nodes && r.nodes - {a} <= g.nodes
    ensures r.edges == g.edges && r.attrs == g.attrs
  {
    g.(nodes := g.nodes + {a})
  }

  /**
   * `add_edge` on a strict graph: the edge is present afterwards together
   * with both of its endpoints, and it is the only new edge.
   */
  function AddEdge(g: Graph, e: Edge): (r: Graph)
    ensures WellFormed(g) ==> WellFormed(r)
    ensures Grows(g, r) && e in r.edges && r.edges - {e} <= g.edges
    ensures r.nodes == g.nodes + {e.source, e.target} && r.attrs == g.attrs
  {
    g.(nodes := g.nodes + {e.source, e.target}, edges := g.edges + {e})
  }

  /** Adding the same directed edge twice has no additional effect. */
  lemma AddEdgeIdempotent(g: Graph, e: Edge)
    ensures AddEdge(AddEdge(g, e), e) == AddEdge(g, e)
  {
  }

  /** Edges reported by concurrent crawls can be added in either order with the same result. */
  lemma AddEdgeCommutes(g: Graph, e1: Edge, e2: Edge)
    ensures AddEdge(AddEdge(g, e1), e2) == AddEdge(AddEdge(g, e2), e1)
  {
  }

  /** Setting the attributes of a vertex: nothing else about the graph changes. */
  function SetAttrs(g: Graph, a: Address, attrs: NodeAttrs): (r: Graph)
    requires a in g.nodes
    ensures WellFormed(g) ==> WellFormed(r)
    ensures r.nodes == g.nodes && r.edges == g.edges
    ensures a in r.attrs && r.attrs[a] == attrs
    ensures forall b :: b != a ==> (b in r.attrs <==> b in g.attrs)
    ensures forall b :: b in g.attrs && b != a ==> r.attrs[b] == g.attrs[b]
  {
    g.(attrs := g.attrs[a := attrs])
  }

  /** The record label `"{addr}|{level}"` of a crawled node. */
  function Label(addr: Address, level: int): string
  {
    addr + "|" + IntToString(level)
  }

  /** Splits a record label at its last field separator back into address and level. */
  function ParseLabel(text: string): Option<(Address, int)>
  {
    match SplitLast(text, '|')
    case None => None
    case Some(parts) =>
      match ParseInt(parts.1)
      case None => None
      case Some(level) => Some((parts.0, level))
  }

  /**
   * A label determines the address and the level it was made from, even
   * when the address itself contains the separator.
   */
  lemma LabelRoundTrip(addr: Address, level: int)
    ensures ParseLabel(Label(addr, level)) == Some((addr, level))
  {
    var digits := IntToString(level);
    assert Label(addr, level) == addr + ['|'] + digits;
    SplitLastJoin(addr, '|', digits);
    IntRoundTrip(level);
  }
}

=== FILE: peers.dfy ===
/**
 * The per-neighbour rule shared by both crawlers: normalise the address a
 * node reports for a peer, and orient the peer link according to the
 * `incoming` flag of the connection record.
 */
module Peers {
  import opened Common

  /** A node's hostname or IP address, the key of graph vertices and of the visited set. */
  type Address = string

  /** The IPv4-mapped IPv6 prefix a node puts in front of IPv4 peers. */
  const MappedPrefix: string := "::ffff:"

  /** One element of the `/network/connections/` reply: `id_point.addr` and `incoming`. */
  datatype Connection = Connection(addr: string, incoming: bool)

  /** A directed peer link, `Edge(node_one, node_two)`. */
  datatype Edge = Edge(source: Address, target: Address)
  {
    /** The endpoints in attribute order, as `edge.__dict__.values()` lists them. */
    function Endpoints(): seq<Address>
    {
      [source, target]
    }

    function Reverse(): Edge
    {
      Edge(target, source)
    }
  }

  /**
   * Strips one leading `::ffff:` when present: the result differs from the
   * input exactly when the prefix was there, and then it is the input minus
   * those seven characters.
   */
  function Normalise(addr: string): (r: Address)
    ensures addr == r || addr == MappedPrefix + r
    ensures r != addr <==> StartsWith(addr, MappedPrefix)
    ensures |r| == if StartsWith(addr, MappedPrefix) then |addr| - 7 else |addr|
  {
    if StartsWith(addr, MappedPrefix) then
      assert addr == MappedPrefix + addr[7..];
      addr[7..]
    else addr
  }

  /** Putting the prefix in front of any address is undone by one normalisation, and only one copy goes. */
  lemma NormaliseUndoesPrefix(a: string)
    ensures Normalise(MappedPrefix + a) == a
  {
    assert StartsWith(MappedPrefix + a, MappedPrefix);
  }

  /** Normalising twice changes the result again exactly when the once-normalised address still carries the prefix. */
  lemma NormaliseIdempotentIff(a: string)
    ensures Normalise(Normalise(a)) == Normalise(a) <==> !StartsWith(Normalise(a), MappedPrefix)
  {
  }

  lemma NormaliseExamples()
    ensures Normalise("::ffff:192.0.2.1") == "192.0.2.1"
    ensures Normalise("192.0.2.1") == "192.0.2.1"
    ensures Normalise("::ffff:::ffff:10.0.0.2") == "::ffff:10.0.0.2"
    ensures Normalise("::1") == "::1"
  {
    NormaliseUndoesPrefix("192.0.2.1");
    NormaliseUndoesPrefix("::ffff:10.0.0.2");
    assert "192.0.2.1"[..7][0] != MappedPrefix[0];
    assert |"::1"| < |MappedPrefix|;
  }

  /**
   * The edge a connection record contributes for the node `endpoint` that
   * reported it: it links `endpoint` with the normalised peer, pointing into
   * `endpoint` for an incoming connection and out of it otherwise.
   */
  function EdgeFor(endpoint: Address, c: Connection): (e: Edge)
    ensures {e.source, e.target} == {endpoint, Normalise(c.addr)}
    ensures c.incoming ==> e.target == endpoint
    ensures !c.incoming ==> e.source == endpoint
  {
    var peer := Normalise(c.addr);
    if c.incoming then Edge(peer, endpoint) else Edge(endpoint, peer)
  }

  /** Flipping the `incoming` flag of a record reverses the edge it produces. */
  lemma EdgeDirectionFlips(endpoint: Address, c: Connection)
    ensures EdgeFor(endpoint, c.(incoming := !c.incoming)) == EdgeFor(endpoint, c).Reverse()
  {
  }

  /** The edges of a whole reply, in reply order, like the `get_neighbours` generator yields them. */
  function EdgesFor(endpoint: Address, cs: seq<Connection>): (es: seq<Edge>)
    ensures |es| == |cs|
    ensures forall i :: 0 <= i < |cs| ==> es[i] == EdgeFor(endpoint, cs[i])
  {
    seq(|cs|, i requires 0 <= i < |cs| => EdgeFor(endpoint, cs[i]))
  }
}

=== FILE: rpc.dfy ===
/**
 * The RPC URLs both crawlers query, built by string templating from a node
 * address and the RPC port.
 */
module Rpc {
  import opened Common
  import opened Decimal
  import opened Peers

  /** The `--rpc_port` default, and the port the sequential crawler hard-codes. */
  const DefaultRpcPort: int := 8732

  const Scheme: string := "http://"
  const NeighboursPath: string := "/network/connections/"
  const HeadPath: string := "/chains/main/blocks/head/"

  /** `ENDPOINT_ROOT`: `http://{endpoint}:{port}`. */
  function EndpointRoot(endpoint: Address, port: int): string
  {
    Scheme + endpoint + ":" + IntToString(port)
  }

  /** `NEIGHBOURS_ENDPOINT` filled in with the root of `endpoint`. */
  function NeighboursUrl(endpoint: Address, port: int): (url: string)
    ensures StartsWith(url, EndpointRoot(endpoint, port))
    ensures url[|EndpointRoot(endpoint, port)|..] == NeighboursPath
  {
    var root := EndpointRoot(endpoint, port);
    assert (root + NeighboursPath)[..|root|] == root;
    root + NeighboursPath
  }

  /** `HEAD_ENDPOINT` filled in with the root of `endpoint`. */
  function HeadUrl(endpoint: Address, port: int): (url: string)
    ensures StartsWith(url, EndpointRoot(endpoint, port))
    ensures url[|EndpointRoot(endpoint, port)|..] == HeadPath
  {
    var root := EndpointRoot(endpoint, port);
    assert (root + HeadPath)[..|root|] == root;
    root + HeadPath
  }

  /** `RPC_ENDPOINT` of the sequential crawler, with its port written into the template. */
  function SequentialNeighboursUrl(endpoint: Address): string
  {
    Scheme + endpoint + ":8732" + NeighboursPath
  }

  /**
   * Reads an endpoint root back into its address and port: the port is
   * whatever follows the last colon, so addresses that contain colons
   * themselves (unbracketed IPv6) are recovered too.
   */
  function ParseRoot(root: string): Option<(Address, int)>
  {
    if !StartsWith(root, Scheme) then None
    else
      match SplitLast(root[|Scheme|..], ':')
      case None => None
      case Some(parts) =>
        match ParseInt(parts.1)
        case None => None
        case Some(port) => Some((parts.0, port))
  }

  /** Every endpoint root determines the address and the port it was built from. */
  lemma RootRoundTrip(endpoint: Address, port: int)
    ensures ParseRoot(EndpointRoot(endpoint, port)) == Some((endpoint, port))
  {
    var digits := IntToString(port);
    var root := EndpointRoot(endpoint, port);
    assert StartsWith(root, Scheme);
    assert root[|Scheme|..] == endpoint + [':'] + digits;
    SplitLastJoin(endpoint, ':', digits);
    IntRoundTrip(port);
  }

  /** The two URLs of one node share its root and differ in their path, so they never coincide. */
  lemma UrlsDiffer(endpoint: Address, port: int)
    ensures NeighboursUrl(endpoint, port) != HeadUrl(endpoint, port)
  {
    var n := |EndpointRoot(endpoint, port)|;
    assert NeighboursUrl(endpoint, port)[n + 1] != HeadUrl(endpoint, port)[n + 1];
  }

  /** Different nodes, or different ports, give different neighbour URLs. */
  lemma NeighboursUrlInjective(a: Address, p: int, b: Address, q: int)
    requires NeighboursUrl(a, p) == NeighboursUrl(b, q)
    ensures a == b && p == q
  {
    var ra := EndpointRoot(a, p);
    var rb := EndpointRoot(b, q);
    var u := NeighboursUrl(a, p);
    assert ra == u[..|u| - |NeighboursPath|];
    assert rb == u[..|u| - |NeighboursPath|];
    RootRoundTrip(a, p);
    RootRoundTrip(b, q);
  }

  /** The sequential crawler queries the same neighbour URL as the traverser on the default port. */
  lemma SequentialUrlIsDefaultPort(endpoint: Address)
    ensures SequentialNeighboursUrl(endpoint) == NeighboursUrl(endpoint, DefaultRpcPort)
  {
    assert IntToString(8732) == "8732";
  }
}

=== FILE: traverser.dfy ===
/**
 * `NodeTraverser` as an abstract transition system. Each stretch of
 * `traverse_node` or `restart_traversal` between two suspension points is
 * one atomic step; the event loop may interleave steps of different tasks
 * in any order, and the network's replies are parameters of the steps.
 */
module Traverser {
  import opened Common
  import opened Peers
  import opened ColorMemo
  import opened DiGraph

  /** The `header.level` of a node's head block, the discriminator of its colour. */
  type Level = int

  /** Where a crawl that got past the re-entrancy guard is suspended. */
  datatype Phase = AwaitingHead | AwaitingConnections

  /** Why a crawl stopped early: the caught `asyncio.TimeoutError`, or any other exception, which propagates. */
  datatype Cause = TimedOut | Raised

  /**
   * The traverser's state: its configuration, the graph and the colour map
   * (kept for the whole process), the graph last written to `graph.dot`,
   * `visited` (reset every pass), `visit_lock`, the suspension point of every
   * running crawl, the `traverse_node` tasks created but not yet started,
   * and the number of `restart_traversal` tasks pending.
   */
  datatype Crawler = Crawler(
    seed: Address,
    runOnce: bool,
    graph: Graph,
    colorMap: Memo<Level, Color>,
    written: Graph,
    visited: set<Address>,
    visitLock: set<Address>,
    phase: map<Address, Phase>,
    scheduled: multiset<Address>,
    restarts: nat)

  /** One atomic step of one task. */
  datatype Step =
    | Begin(addr: Address)
    | HeadArrived(addr: Address, level: Level)
    | ConnectionsArrived(addr: Address, conns: seq<Connection>)
    | Abort(addr: Address, cause: Cause, processed: seq<Connection>)
    | Restart

  /**
   * The traverser once `start_traverse` has run: empty per-instance state,
   * the colour map cycling through the palette, one pass pending.
   */
  function Init(seed: Address, runOnce: bool): (s: Crawler)
    ensures Inv(s)
  {
    Crawler(seed, runOnce, Empty(), New(Palette), Empty(), {}, {}, map[], multiset{}, 1)
  }

  /** The state invariant kept by every step. */
  ghost predicate Inv(s: Crawler)
  {
    && s.phase.Keys == s.visitLock
    && Valid(s.colorMap)
    && s.colorMap.defaults == Palette
    && WellFormed(s.graph)
    && Coloured(s.graph, s.colorMap)
  }

  /**
   * Every crawled node is a record labelled with its own address and a
   * level, and its colour is the one the colour map holds for that level.
   */
  ghost predicate Coloured(g: Graph, colorMap: Memo<Level, Color>)
  {
    forall a :: a in g.attrs ==>
      && g.attrs[a].shape == RecordShape
      && ParseLabel(g.attrs[a].text).Some?
      && ParseLabel(g.attrs[a].text).value.0 == a
      && ValueOf(colorMap, ParseLabel(g.attrs[a].text).value.1) == Some(g.attrs[a].color)
  }

  /** The level a crawled node's label records. */
  function LabelLevel(g: Graph, a: Address): Option<Level>
  {
    if a in g.attrs then
      match ParseLabel(g.attrs[a].text)
      case None => None
      case Some(p) => Some(p.1)
    else None
  }

  /** The edges a list of connection records contributes for `addr`. */
  function EdgeSet(addr: Address, cs: seq<Connection>): set<Edge>
  {
    set i | 0 <= i < |cs| :: EdgeFor(addr, cs[i])
  }

  lemma EdgeSetSnoc(addr: Address, cs: seq<Connection>)
    requires 0 < |cs|
    ensures EdgeSet(addr, cs) == EdgeSet(addr, cs[..|cs| - 1]) + {EdgeFor(addr, cs[|cs| - 1])}
  {
    var init := cs[..|cs| - 1];
    forall e | e in EdgeSet(addr, cs) ensures e in EdgeSet(addr, init) + {EdgeFor(addr, cs[|cs| - 1])} {
      var i :| 0 <= i < |cs| && e == EdgeFor(addr, cs[i]);
      if i < |cs| - 1 { assert cs[i] == init[i]; }
    }
    forall e | e in EdgeSet(addr, init) ensures e in EdgeSet(addr, cs) {
      var i :| 0 <= i < |init| && e == EdgeFor(addr, init[i]);
      assert init[i] == cs[i];
    }
  }

  lemma EndpointsAdd(es: set<Edge>, e: Edge)
    ensures Endpoints(es + {e}) == Endpoints(es) + {e.source, e.target}
  {
  }

  /** The vertices the given edges touch. */
  function Endpoints(es: set<Edge>): set<Address>
  {
    (set e | e in es :: e.source) + (set e | e in es :: e.target)
  }

  /** The normalised peer address of every record, in reply order. */
  function PeerAddrs(cs: seq<Connection>): (ps: seq<Address>)
    ensures |ps| == |cs| && forall i :: 0 <= i < |cs| ==> ps[i] == Normalise(cs[i].addr)
  {
    seq(|cs|, i requires 0 <= i < |cs| => Normalise(cs[i].addr))
  }

  /**
   * The `traverse_node` tasks a list of records creates: one per record
   * whose normalised peer is not visited, so a peer listed n times gets n
   * tasks.
   */
  function NewTasks(visited: set<Address>, cs: seq<Connection>): (t: multiset<Address>)
    ensures forall p :: t[p] == if p in visited then 0 else multiset(PeerAddrs(cs))[p]
    ensures forall p :: p in t ==> p !in visited
    ensures forall i :: 0 <= i < |cs| && Normalise(cs[i].addr) !in visited ==> Normalise(cs[i].addr) in t
    ensures |t| <= |cs|
  {
    if |cs| == 0 then multiset{}
    else
      var peer := Normalise(cs[|cs| - 1].addr);
      assert PeerAddrs(cs) == PeerAddrs(cs[..|cs| - 1]) + [peer];
      NewTasks(visited, cs[..|cs| - 1]) + (if peer in visited then multiset{} else multiset{peer})
  }

  /**
   * The graph side of the `async for` over a node's connections: each record,
   * in order, adds its edge (and the edge's endpoints) to the graph.
   */
  function AddConnections(g: Graph, addr: Address, cs: seq<Connection>): (r: Graph)
    ensures r.edges == g.edges + EdgeSet(addr, cs)
    ensures r.nodes == g.nodes + Endpoints(EdgeSet(addr, cs))
    ensures r.attrs == g.attrs
  {
    if |cs| == 0 then g
    else
      var init := cs[..|cs| - 1];
      var r0 := AddConnections(g, addr, init);
      EdgeSetSnoc(addr, cs);
      EndpointsAdd(EdgeSet(addr, init), EdgeFor(addr, cs[|cs| - 1]));
      AddEdge(r0, EdgeFor(addr, cs[|cs| - 1]))
  }

  /**
   * The body of the `async for` over a node's connections: each record adds
   * its edge, and schedules a crawl of its peer when that peer is not in
   * `visited`. Nothing awaits inside, so the whole loop is one step, and
   * `visited` is the same for every record.
   */
  function Discover(s: Crawler, addr: Address, cs: seq<Connection>): (r: Crawler)
    ensures r.graph.edges == s.graph.edges + EdgeSet(addr, cs)
    ensures r.graph.nodes == s.graph.nodes + Endpoints(EdgeSet(addr, cs))
    ensures r.graph.attrs == s.graph.attrs
    ensures r.scheduled == s.scheduled + NewTasks(s.visited, cs)
    ensures r == s.(graph := r.graph, scheduled := r.scheduled)
  {
    s.(graph := AddConnections(s.graph, addr, cs), scheduled := s.scheduled + NewTasks(s.visited, cs))
  }

  /** The `finally` clause: the address leaves `visit_lock` and its crawl is over. */
  function Release(s: Crawler, addr: Address): (r: Crawler)
    ensures r.visitLock == s.visitLock - {addr} && addr !in r.phase
    ensures forall b :: b != addr ==> (b in r.phase <==> b in s.phase) && (b in r.phase ==> r.phase[b] == s.phase[b])
    ensures s.phase.Keys == s.visitLock ==> r.phase.Keys == r.visitLock
    ensures r == s.(visitLock := r.visitLock, phase := r.phase)
  {
    s.(visitLock := s.visitLock - {addr}, phase := s.phase - {addr})
  }

  /** Whether the environment can take `step` now. */
  predicate Enabled(s: Crawler, step: Step)
  {
    match step
    case Begin(a) => a in s.scheduled
    case HeadArrived(a, _) => a in s.phase && s.phase[a] == AwaitingHead && 0 < |s.colorMap.defaults|
    case ConnectionsArrived(a, _) => a in s.phase && s.phase[a] == AwaitingConnections
    case Abort(a, cause, processed) =>
      && a in s.phase
      && (cause == TimedOut || s.phase[a] == AwaitingHead ==> processed == [])
    case Restart => 0 < s.restarts
  }

  /**
   * A `traverse_node` task starts: with the address in `visit_lock` it returns
   * at once; otherwise the address enters `visited` and `visit_lock` and the
   * head request is issued. The graph and colour map are not touched.
   */
  function StartCrawl(s: Crawler, a: Address): (r: Crawler)
    requires a in s.scheduled
    ensures r.scheduled == s.scheduled - multiset{a}
    ensures a in s.visitLock ==> r == s.(scheduled := r.scheduled)
    ensures a !in s.visitLock ==>
              && r.visited == s.visited + {a}
              && r.visitLock == s.visitLock + {a}
              && a in r.phase && r.phase[a] == AwaitingHead
    ensures a !in s.visitLock ==>
              r == s.(scheduled := r.scheduled, visited := r.visited, visitLock := r.visitLock,
                      phase := s.phase[a := AwaitingHead])
    ensures r.graph == s.graph && r.colorMap == s.colorMap && r.written == s.written
  {
    var s1 := s.(scheduled := s.scheduled - multiset{a});
    if a in s.visitLock then s1
    else s1.(visited := s.visited + {a}, visitLock := s.visitLock + {a}, phase := s.phase[a := AwaitingHead])
  }

  /**
   * The head reply arrives: the node is added as a record labelled
   * `"{addr}|{level}"` and coloured with the colour map's entry for the level,
   * which the lookup creates for a level not seen before.
   */
  function RecordHead(s: Crawler, a: Address, level: Level): (r: Crawler)
    requires a in s.phase && 0 < |s.colorMap.defaults|
    ensures a in r.graph.attrs
    ensures r.graph.attrs[a].shape == RecordShape && r.graph.attrs[a].text == Label(a, level)
    ensures ValueOf(r.colorMap, level) == Some(r.graph.attrs[a].color)
    ensures Extends(s.colorMap, r.colorMap)
    ensures Keys(r.colorMap) == Keys(s.colorMap) + (if level in Keys(s.colorMap) then [] else [level])
    ensures r.graph.nodes == s.graph.nodes + {a} && r.graph.edges == s.graph.edges
    ensures forall b :: b in s.graph.attrs && b != a ==> b in r.graph.attrs && r.graph.attrs[b] == s.graph.attrs[b]
    ensures r.graph.attrs.Keys == s.graph.attrs.Keys + {a}
    ensures r == s.(graph := r.graph, colorMap := r.colorMap, phase := s.phase[a := AwaitingConnections])
  {
    GetSpec(s.colorMap, level);
    var lk := Get(s.colorMap, level).value;
    var g := AddNode(s.graph, a);
    s.(graph := SetAttrs(g, a, NodeAttrs(RecordShape, Label(a, level), lk.value)),
       colorMap := lk.memo,
       phase := s.phase[a := AwaitingConnections])
  }

  /**
   * `restart_traversal`: write the graph, forget `visited`, schedule a crawl
   * of the seed, and, unless in run-once mode, sleep and schedule the next
   * pass (so the number of pending passes stays the same).
   */
  function RestartPass(s: Crawler): (r: Crawler)
    requires 0 < s.restarts
    ensures r.written == s.graph && r.visited == {}
    ensures r.graph == s.graph && r.colorMap == s.colorMap
    ensures r.visitLock == s.visitLock && r.phase == s.phase
    ensures r.scheduled == s.scheduled + multiset{s.seed}
    ensures r.restarts == if s.runOnce then s.restarts - 1 else s.restarts
    ensures r.seed == s.seed && r.runOnce == s.runOnce
  {
    s.(written := s.graph,
       visited := {},
       scheduled := s.scheduled + multiset{s.seed},
       restarts := if s.runOnce then s.restarts - 1 else s.restarts)
  }

  /**
   * The effect of an enabled step. A task start consumes its task; a head
   * reply records the node; a connections reply, a timeout and any other
   * exception all add the edges of the records processed and then run the
   * `finally` clause, releasing the address; a restart begins a new pass.
   */
  function Next(s: Crawler, step: Step): (r: Crawler)
    requires Enabled(s, step)
    ensures step.Begin? ==> r.scheduled == s.scheduled - multiset{step.addr}
    ensures step.HeadArrived? ==> step.addr in r.graph.attrs && step.addr in r.phase && r.phase[step.addr] == AwaitingConnections
    ensures step.ConnectionsArrived? ==> r.graph.edges == s.graph.edges + EdgeSet(step.addr, step.conns)
    ensures step.Abort? ==> r.graph.edges == s.graph.edges + EdgeSet(step.addr, step.processed)
    ensures step.ConnectionsArrived? || step.Abort? ==>
              step.addr !in r.phase && r.visitLock == s.visitLock - {step.addr}
    ensures step.Restart? ==> r.visited == {} && r.written == s.graph
  {
    match step
    case Begin(a) => StartCrawl(s, a)
    case HeadArrived(a, level) => RecordHead(s, a, level)
    case ConnectionsArrived(a, cs) => Release(Discover(s, a, cs), a)
    case Abort(a, _, processed) => Release(Discover(s, a, processed), a)
    case Restart => RestartPass(s)
  }

  /** Takes the steps in order, leaving out those that are not enabled when their turn comes. */
  function Run(s: Crawler, steps: seq<Step>): Crawler
    decreases |steps|
  {
    if |steps| == 0 then s
    else Run(if Enabled(s, steps[0]) then Next(s, steps[0]) else s, steps[1..])
  }

  /** The number of passes that actually start during a run. */
  function Passes(s: Crawler, steps: seq<Step>): nat
    decreases |steps|
  {
    if |steps| == 0 then 0
    else
      var now := if steps[0] == Restart && Enabled(s, Restart) then 1 else 0;
      now + Passes(if Enabled(s, steps[0]) then Next(s, steps[0]) else s, steps[1..])
  }
}

=== FILE: traverser_lemmas.dfy ===
/** Properties of the traverser's transition system, over single steps and whole runs. */
module TraverserLemmas {
  import opened Common
  import opened Peers
  import opened ColorMemo
  import opened DiGraph
  import opened Traverser

  /** The head step keeps every earlier node's colour consistent and labels the new one consistently. */
  lemma RecordHeadKeepsInv(s: Crawler, a: Address, level: Level)
    requires Inv(s) && a in s.phase
    ensures Inv(RecordHead(s, a, level))
  {
    var r := RecordHead(s, a, level);
    GetPreservesValid(s.colorMap, level);
    LabelRoundTrip(a, level);
    forall b | b in r.graph.attrs
      ensures && r.graph.attrs[b].shape == RecordShape
              && ParseLabel(r.graph.attrs[b].text).Some?
              && ParseLabel(r.graph.attrs[b].text).value.0 == b
              && ValueOf(r.colorMap, ParseLabel(r.graph.attrs[b].text).value.1) == Some(r.graph.attrs[b].color)
    {
      if b != a {
        var l := ParseLabel(s.graph.attrs[b].text).value.1;
        ExtendsKeepsValues(s.colorMap, r.colorMap, l);
      }
    }
  }

  /** Every enabled step keeps the invariant. */
  lemma NextPreservesInv(s: Crawler, step: Step)
    requires Inv(s) && Enabled(s, step)
    ensures Inv(Next(s, step))
  {
    match step
    case HeadArrived(a, level) => RecordHeadKeepsInv(s, a, level);
    case ConnectionsArrived(a, cs) => DiscoverKeepsGraph(s, a, cs);
    case Abort(a, _, processed) => DiscoverKeepsGraph(s, a, processed);
    case Begin(_) =>
    case Restart =>
  }

  lemma DiscoverKeepsGraph(s: Crawler, a: Address, cs: seq<Connection>)
    requires Inv(s)
    ensures Inv(Discover(s, a, cs))
  {
    var r := Discover(s, a, cs);
    forall e | e in r.graph.edges
      ensures e.source in r.graph.nodes && e.target in r.graph.nodes
    {
      if e !in s.graph.edges {
        assert e in EdgeSet(a, cs);
      }
    }
  }

  /** Every state any run reaches from an invariant state satisfies the invariant. */
  lemma {:induction false} RunPreservesInv(s: Crawler, steps: seq<Step>)
    requires Inv(s)
    ensures Inv(Run(s, steps))
    decreases |steps|
  {
    if |steps| > 0 {
      var s' := if Enabled(s, steps[0]) then Next(s, steps[0]) else s;
      if Enabled(s, steps[0]) {
        NextPreservesInv(s, steps[0]);
      }
      RunPreservesInv(s', steps[1..]);
    }
  }

  /**
   * `visit_lock` changes only at the guard and at the end of a crawl: a
   * crawl that gets past the guard adds its address, every way a crawl can
   * end (all connections processed, timeout, other exception) removes it,
   * and no other step touches it.
   */
  lemma VisitLockDiscipline(s: Crawler, step: Step)
    requires Enabled(s, step)
    ensures step.Begin? && step.addr !in s.visitLock ==> Next(s, step).visitLock == s.visitLock + {step.addr}
    ensures step.Begin? && step.addr in s.visitLock ==> Next(s, step).visitLock == s.visitLock
    ensures step.ConnectionsArrived? || step.Abort? ==> Next(s, step).visitLock == s.visitLock - {step.addr}
    ensures step.HeadArrived? || step.Restart? ==> Next(s, step).visitLock == s.visitLock
  {
  }

  /**
   * When a running crawl can stop early: a timeout only before any record
   * is processed (the whole reply is awaited first), and any other
   * exception either before the head arrives, with nothing processed, or
   * after a prefix of the connection records.
   */
  lemma AbortEnabled(s: Crawler, a: Address, cause: Cause, processed: seq<Connection>)
    ensures Enabled(s, Abort(a, cause, processed)) <==>
              a in s.phase && (processed == [] || (cause == Raised && s.phase[a] == AwaitingConnections))
  {
  }

  /** A crawl whose address is already locked changes nothing but consumes its task. */
  lemma GuardedBeginIsNoOp(s: Crawler, a: Address)
    requires a in s.scheduled && a in s.visitLock
    ensures Next(s, Begin(a)) == s.(scheduled := s.scheduled - multiset{a})
  {
  }

  /** No step removes a vertex or an edge, and the colour map only gains entries. */
  lemma NextGrows(s: Crawler, step: Step)
    requires Enabled(s, step)
    ensures Grows(s.graph, Next(s, step).graph)
    ensures Extends(s.colorMap, Next(s, step).colorMap)
    ensures Next(s, step).seed == s.seed && Next(s, step).runOnce == s.runOnce
  {
  }

  /** Across any run, including any number of passes, the graph and the colour map only grow. */
  lemma {:induction false} RunGrows(s: Crawler, steps: seq<Step>)
    ensures Grows(s.graph, Run(s, steps).graph)
    ensures Extends(s.colorMap, Run(s, steps).colorMap)
    ensures Run(s, steps).seed == s.seed && Run(s, steps).runOnce == s.runOnce
    decreases |steps|
  {
    if |steps| > 0 {
      var s' := if Enabled(s, steps[0]) then Next(s, steps[0]) else s;
      if Enabled(s, steps[0]) {
        NextGrows(s, steps[0]);
      }
      RunGrows(s', steps[1..]);
      ExtendsTransitive(s.colorMap, s'.colorMap, Run(s', steps[1..]).colorMap);
    }
  }

  /** Only a new pass shrinks `visited`, and it empties it; every other step keeps what was visited. */
  lemma VisitedResetOnlyByRestart(s: Crawler, step: Step)
    requires Enabled(s, step)
    ensures step.Restart? ==> Next(s, step).visited == {}
    ensures !step.Restart? ==> s.visited <= Next(s, step).visited
  {
  }

  /**
   * Processing connection records creates a task for a peer exactly when
   * the peer is not in `visited`, once per such record, and adds every
   * record's edge.
   */
  lemma ScheduleIffUnvisited(s: Crawler, a: Address, cs: seq<Connection>, i: nat)
    requires i < |cs|
    ensures var r := Discover(s, a, cs);
      && EdgeFor(a, cs[i]) in r.graph.edges
      && (Normalise(cs[i].addr) in r.scheduled - s.scheduled <==> Normalise(cs[i].addr) !in s.visited)
  {
    var r := Discover(s, a, cs);
    assert EdgeFor(a, cs[i]) in EdgeSet(a, cs);
    assert r.scheduled - s.scheduled == NewTasks(s.visited, cs);
  }

  /** In every invariant state, two crawled nodes whose labels carry the same level have the same colour. */
  lemma EqualLevelsEqualColours(s: Crawler, a: Address, b: Address)
    requires Inv(s)
    requires LabelLevel(s.graph, a).Some? && LabelLevel(s.graph, a) == LabelLevel(s.graph, b)
    ensures s.graph.attrs[a].color == s.graph.attrs[b].color
  {
  }

  /** Every colour a crawled node carries comes from the palette. */
  lemma ColoursFromPalette(s: Crawler, a: Address)
    requires Inv(s) && a in s.graph.attrs
    ensures s.graph.attrs[a].color in Palette
  {
    var l := ParseLabel(s.graph.attrs[a].text).value.1;
    var i := Find(s.colorMap.entries, l).value;
    CycledInDefaults(Palette, i);
  }

  /**
   * Colours are stable across passes: a node crawled at some level now and
   * any node crawled at the same level after any later steps, restarts
   * included, have the same colour.
   */
  lemma ColoursStableAcrossPasses(s: Crawler, steps: seq<Step>, a: Address, b: Address)
    requires Inv(s)
    requires LabelLevel(s.graph, a).Some?
    requires LabelLevel(Run(s, steps).graph, b) == LabelLevel(s.graph, a)
    ensures Run(s, steps).graph.attrs[b].color == s.graph.attrs[a].color
  {
    var t := Run(s, steps);
    RunPreservesInv(s, steps);
    RunGrows(s, steps);
    var l := LabelLevel(s.graph, a).value;
    ExtendsKeepsValues(s.colorMap, t.colorMap, l);
  }

  /** In run-once mode no more passes start than were pending. */
  lemma {:induction false} RunOncePasses(s: Crawler, steps: seq<Step>)
    requires s.runOnce
    ensures Passes(s, steps) <= s.restarts
    decreases |steps|
  {
    if |steps| > 0 {
      var s' := if Enabled(s, steps[0]) then Next(s, steps[0]) else s;
      RunOncePasses(s', steps[1..]);
    }
  }

  /** Started in run-once mode, the traverser runs at most one pass, whatever happens. */
  lemma RunOnceSinglePass(seed: Address, steps: seq<Step>)
    ensures Passes(Init(seed, true), steps) <= 1
  {
    RunOncePasses(Init(seed, true), steps);
  }

  /** In continuous mode a next pass is always pending: the traverser never stops refreshing. */
  lemma {:induction false} ContinuousModeKeepsRefreshing(s: Crawler, steps: seq<Step>)
    requires !s.runOnce
    ensures Run(s, steps).restarts == s.restarts
    ensures 0 < s.restarts ==> Enabled(Run(s, steps), Restart)
    decreases |steps|
  {
    if |steps| > 0 {
      var s' := if Enabled(s, steps[0]) then Next(s, steps[0]) else s;
      ContinuousModeKeepsRefreshing(s', steps[1..]);
    }
  }

  /** A node reporting the same unvisited peer twice schedules two crawl tasks for it. */
  lemma ReportedTwice(s: Crawler, a: Address, b: Address)
    requires a in s.phase && s.phase[a] == AwaitingConnections
    requires b !in s.visited && b !in s.scheduled && !StartsWith(b, MappedPrefix)
    ensures var s1 := Next(s, ConnectionsArrived(a, [Connection(b, false), Connection(b, true)]));
      s1.scheduled[b] == 2 && s1.visited == s.visited && s1.visitLock == s.visitLock - {a}
  {
    var cs := [Connection(b, false), Connection(b, true)];
    assert cs[..1] == [Connection(b, false)];
    assert NewTasks(s.visited, cs) == multiset{b, b};
  }

  /** A crawl that times out before any connection record arrives schedules nothing and leaves `visit_lock`. */
  lemma TimeoutReleases(s: Crawler, b: Address)
    requires b in s.phase
    ensures var s' := Next(s, Abort(b, TimedOut, []));
      s'.visited == s.visited && s'.visitLock == s.visitLock - {b} && s'.scheduled == s.scheduled
  {
    assert NewTasks(s.visited, []) == multiset{};
  }

  /**
   * `visited` is filled in when a crawl starts, not when it is scheduled:
   * a node that reports the same unvisited peer twice creates two crawl
   * tasks for it, and if the first one ends before the second starts, the
   * peer is crawled twice within one pass.
   */
  lemma DuplicateCrawlInOnePass(s: Crawler, a: Address, b: Address)
    requires Inv(s)
    requires a in s.phase && s.phase[a] == AwaitingConnections
    requires b != a && b !in s.visited && b !in s.visitLock && b !in s.scheduled
    requires !StartsWith(b, MappedPrefix)
    ensures var cs := [Connection(b, false), Connection(b, true)];
      var s1 := Next(s, ConnectionsArrived(a, cs));
      && s1.scheduled[b] == 2
      && var s2 := Next(s1, Begin(b));
      && b in s2.visitLock
      && var s3 := Next(s2, Abort(b, TimedOut, []));
      && b in s3.visited && b !in s3.visitLock && b in s3.scheduled
      && var s4 := Next(s3, Begin(b));
      && b in s4.visitLock && s4.phase[b] == AwaitingHead
  {
    var s1 := Next(s, ConnectionsArrived(a, [Connection(b, false), Connection(b, true)]));
    ReportedTwice(s, a, b);
    var s2 := Next(s1, Begin(b));
    assert b in s2.visited && b in s2.visitLock && s2.scheduled[b] == 1 && b in s2.phase;
    var s3 := Next(s2, Abort(b, TimedOut, []));
    TimeoutReleases(s2, b);
    assert b in s3.visited && b !in s3.visitLock && s3.scheduled[b] == 1;
  }

}

=== FILE: worklist.dfy ===
/**
 * `make_graph` of the sequential crawler: a breadth-first worklist over the
 * peer network, where an address is marked visited right before its
 * neighbour fetch is queued, so each address is fetched at most once.
 */
module Worklist {
  import opened Common
  import opened Peers

  /**
   * What fetching one node's connections delivers before the stream ends:
   * the whole reply; nothing, when the request times out (`fetch` awaits
   * the whole body before it yields a record, so a timeout always strikes
   * first); or the records processed before any other exception (a refused
   * connection, a record without `id_point.addr`).
   */
  datatype Listing =
    | Complete(conns: seq<Connection>)
    | TimedOut
    | Failed(conns: seq<Connection>)

  /** The records a listing hands out before its stream ends. */
  function Records(l: Listing): seq<Connection>
  {
    match l
    case Complete(cs) => cs
    case TimedOut => []
    case Failed(cs) => cs
  }

  /** The peer network as seen by the crawler; an address it does not list refuses connections. */
  type Network = map<Address, Listing>

  /** Exceptions other than a timeout leave `make_graph` and the graph is never rendered. */
  datatype CrawlError = Unhandled(addr: Address)

  /** The outcome of a crawl: the strict graph's edges, `visited`, and the addresses in the order they were fetched. */
  datatype Crawl = Crawl(edges: set<Edge>, visited: set<Address>, order: seq<Address>)

  function ListingOf(net: Network, a: Address): Listing
  {
    if a in net then net[a] else Failed([])
  }

  /**
   * `get_neighbours`: the edges of the records delivered, in order; a
   * timeout just ends the stream, keeping the edges already yielded and
   * raising nothing, while any other exception propagates.
   */
  function GetNeighbours(net: Network, a: Address): (r: Result<seq<Edge>, CrawlError>)
    ensures r.Failure? <==> ListingOf(net, a).Failed?
    ensures r.Failure? ==> r.error == Unhandled(a)
    ensures r.Success? ==> r.value == EdgesFor(a, Records(ListingOf(net, a)))
  {
    match ListingOf(net, a)
    case Failed(_) => Failure(Unhandled(a))
    case Complete(cs) => Success(EdgesFor(a, cs))
    case TimedOut => Success([])
  }

  /** The edges a node contributes when its neighbours are fetched. */
  function Delivered(net: Network, a: Address): seq<Edge>
  {
    EdgesFor(a, Records(ListingOf(net, a)))
  }

  /** All edges contributed by fetching the given addresses. */
  function EdgesAlong(net: Network, order: seq<Address>): set<Edge>
  {
    if |order| == 0 then {}
    else EdgesAlong(net, order[..|order| - 1]) + Elements(Delivered(net, order[|order| - 1]))
  }

  /** The endpoints of the given edges, edge by edge, source before target. */
  function Ends(es: seq<Edge>): seq<Address>
  {
    if |es| == 0 then []
    else Ends(es[..|es| - 1]) + [es[|es| - 1].source, es[|es| - 1].target]
  }

  /** The endpoints met while fetching the given addresses in order: the ends of every delivered edge. */
  function EndsAlong(net: Network, order: seq<Address>): seq<Address>
  {
    if |order| == 0 then []
    else EndsAlong(net, order[..|order| - 1]) + Ends(Delivered(net, order[|order| - 1]))
  }

  /** Every address the crawl can ever meet: the seed and the normalised peers of every listing. */
  function Universe(net: Network, seed: Address): set<Address>
  {
    {seed} + net.Keys
      + set a, i | a in net && 0 <= i < |Records(net[a])| :: Normalise(Records(net[a])[i].addr)
  }

  /** A set of addresses that holds both ends of every edge its members contribute. */
  ghost predicate Closed(net: Network, s: set<Address>)
  {
    forall a, e :: a in s && e in Delivered(net, a) ==> e.source in s && e.target in s
  }

  /** The crawl's universe is a finite set holding the seed that no fetched edge leaves. */
  lemma UniverseIsClosed(net: Network, seed: Address) returns (U: set<Address>)
    ensures seed in U && Closed(net, U)
  {
    U := Universe(net, seed);
    forall a, e | a in U && e in Delivered(net, a)
      ensures e.source in U && e.target in U
    {
      var cs := Records(ListingOf(net, a));
      var i :| 0 <= i < |cs| && Delivered(net, a)[i] == e;
      assert Normalise(Records(net[a])[i].addr) in U;
    }
  }

  lemma EdgesAlongSnoc(net: Network, order: seq<Address>, a: Address)
    ensures EdgesAlong(net, order + [a]) == EdgesAlong(net, order) + Elements(Delivered(net, a))
  {
    assert (order + [a])[..|order|] == order;
  }

  lemma EdgesAlongSource(net: Network, order: seq<Address>, e: Edge) returns (k: nat)
    requires e in EdgesAlong(net, order)
    ensures k < |order| && e in Delivered(net, order[k])
  {
    if e in Elements(Delivered(net, order[|order| - 1])) {
      k := |order| - 1;
    } else {
      k := EdgesAlongSource(net, order[..|order| - 1], e);
    }
  }

  lemma EdgesAlongComplete(net: Network, order: seq<Address>, k: nat, e: Edge)
    requires k < |order| && e in Delivered(net, order[k])
    ensures e in EdgesAlong(net, order)
  {
    if k < |order| - 1 {
      EdgesAlongComplete(net, order[..|order| - 1], k, e);
    }
  }

  /** A timed-out fetch yields no edge and raises nothing: the crawl goes on without that node's peers. */
  lemma TimeoutDeliversNothing(net: Network, a: Address)
    requires ListingOf(net, a).TimedOut?
    ensures GetNeighbours(net, a) == Success([]) && Delivered(net, a) == []
  {
  }

  /**
   * The bookkeeping of the worklist: `enq` is every address ever queued, in
   * queue order, the first `processed` of them fetched; each was marked
   * visited exactly when it was queued; each queued address other than the
   * seed was found on an edge of an earlier, already fetched, address.
   */
  ghost predicate QueueInv(net: Network, seed: Address, U: set<Address>, visited: set<Address>,
                           enq: seq<Address>, parent: seq<nat>, processed: nat)
  {
    && 0 < |enq| && enq[0] == seed
    && Distinct(enq) && visited == Elements(enq)
    && visited <= U && Closed(net, U)
    && |parent| == |enq|
    && ParentsFetched(net, enq, parent, processed)
    && (forall i, k :: 0 < i < k < |enq| ==> parent[i] <= parent[k])
  }

  /** Each queued address but the seed lies on an edge delivered by its parent, an earlier and already fetched address. */
  ghost predicate ParentsFetched(net: Network, enq: seq<Address>, parent: seq<nat>, processed: nat)
    requires |parent| == |enq|
  {
    forall k :: 0 < k < |enq| ==>
      && parent[k] < k && parent[k] < processed
      && exists e :: e in Delivered(net, enq[parent[k]]) && enq[k] in e.Endpoints()
  }

  /** Marking an endpoint of a fetched edge visited and queueing it keeps the bookkeeping. */
  lemma EnqueueKeepsInv(net: Network, seed: Address, U: set<Address>, visited: set<Address>, enq: seq<Address>,
                        parent: seq<nat>, processed: nat, e: Edge, node: Address)
    requires QueueInv(net, seed, U, visited, enq, parent, processed)
    requires 0 < processed <= |enq|
    requires e in Delivered(net, enq[processed - 1]) && node in e.Endpoints() && node !in visited
    ensures QueueInv(net, seed, U, visited + {node}, enq + [node], parent + [processed - 1], processed)
  {
    assert node in U by {
      assert enq[processed - 1] in U;
    }
    assert Elements(enq + [node]) == Elements(enq) + {node};
    AppendDistinct(enq, node);
    AppendParents(net, enq, parent, processed, e, node);
    AppendMonotone(enq, parent, parent + [processed - 1], processed);
  }

  /** Appending an element not yet present keeps a sequence free of repetitions. */
  lemma AppendDistinct<T>(s: seq<T>, x: T)
    requires Distinct(s) && x !in Elements(s)
    ensures Distinct(s + [x])
  {
    var s' := s + [x];
    forall i, j | 0 <= i < j < |s'|
      ensures s'[i] != s'[j]
    {
      if j == |s| {
        assert s'[i] == s[i] && s[i] in Elements(s);
      } else {
        assert s'[i] == s[i] && s'[j] == s[j];
      }
    }
  }

  /** The appended address's parent is the last fetched one, which delivered the edge it lies on. */
  lemma AppendParents(net: Network, enq: seq<Address>, parent: seq<nat>, processed: nat, e: Edge, node: Address)
    requires |parent| == |enq| && 0 < processed <= |enq| && ParentsFetched(net, enq, parent, processed)
    requires e in Delivered(net, enq[processed - 1]) && node in e.Endpoints()
    ensures ParentsFetched(net, enq + [node], parent + [processed - 1], processed)
  {
    var enq', parent' := enq + [node], parent + [processed - 1];
    forall k | 0 < k < |enq'|
      ensures && parent'[k] < k && parent'[k] < processed
              && exists e' :: e' in Delivered(net, enq'[parent'[k]]) && enq'[k] in e'.Endpoints()
    {
      if k == |enq| {
        assert enq'[parent'[k]] == enq[processed - 1];
      } else {
        assert enq'[k] == enq[k] && enq'[parent'[k]] == enq[parent[k]];
      }
    }
  }

  /** Parents stay in non-decreasing order when the new address's parent is the last fetched one. */
  lemma AppendMonotone(enq: seq<Address>, parent: seq<nat>, parent': seq<nat>, processed: nat)
    requires |parent| == |enq| && 0 < processed && parent' == parent + [processed - 1]
    requires forall k :: 0 < k < |enq| ==> parent[k] < processed
    requires forall i, k :: 0 < i < k < |enq| ==> parent[i] <= parent[k]
    ensures forall i, k :: 0 < i < k < |enq| + 1 ==> parent'[i] <= parent'[k]
  {
    forall i, k | 0 < i < k < |enq| + 1
      ensures parent'[i] <= parent'[k]
    {
      assert parent'[i] == parent[i];
    }
  }

  /** Addresses are queued at most once and all lie in the universe, so there are no more of them than it holds. */
  lemma QueueWithinUniverse(net: Network, seed: Address, U: set<Address>, visited: set<Address>,
                            enq: seq<Address>, parent: seq<nat>, processed: nat)
    requires QueueInv(net, seed, U, visited, enq, parent, processed)
    ensures |enq| <= |U|
  {
    DistinctCard(enq);
    assert U == visited + (U - visited);
  }

  /** Marks `node` visited and queues it, keeping the bookkeeping. */
  method Enqueue(ghost net: Network, seed: Address, ghost U: set<Address>, order: seq<Address>,
                 visited0: set<Address>, queue0: seq<Address>, ghost parent0: seq<nat>, ghost e: Edge, node: Address)
    returns (visited: set<Address>, queue: seq<Address>, ghost parent: seq<nat>)
    requires 0 < |order| && QueueInv(net, seed, U, visited0, order + queue0, parent0, |order|)
    requires e in Delivered(net, order[|order| - 1]) && node in e.Endpoints() && node !in visited0
    ensures QueueInv(net, seed, U, visited, order + queue, parent, |order|)
    ensures visited == visited0 + {node} && queue == queue0 + [node]
  {
    EnqueueKeepsInv(net, seed, U, visited0, order + queue0, parent0, |order|, e, node);
    visited := visited0 + {node};
    queue := queue0 + [node];
    parent := parent0 + [|order| - 1];
    assert order + queue == (order + queue0) + [node];
  }

  /** One edge of the reply: each endpoint not yet visited is marked visited and then queued, source first. */
  method VisitEdge(ghost net: Network, seed: Address, ghost U: set<Address>, order: seq<Address>,
                   visited0: set<Address>, queue0: seq<Address>, ghost parent0: seq<nat>, e: Edge)
    returns (visited: set<Address>, queue: seq<Address>, ghost parent: seq<nat>)
    requires 0 < |order| && e in Delivered(net, order[|order| - 1])
    requires QueueInv(net, seed, U, visited0, order + queue0, parent0, |order|)
    ensures QueueInv(net, seed, U, visited, order + queue, parent, |order|)
    ensures visited == visited0 + {e.source, e.target}
    ensures queue == queue0 + FirstSight(order + queue0, [e.source, e.target])
  {
    visited, queue, parent := visited0, queue0, parent0;
    if e.source !in visited {
      visited, queue, parent := Enqueue(net, seed, U, order, visited, queue, parent, e, e.source);
    }
    if e.target !in visited {
      visited, queue, parent := Enqueue(net, seed, U, order, visited, queue, parent, e, e.target);
    }
    FirstSightPair(order + queue0, e.source, e.target);
  }

  /** The first-sight scan of two addresses: each is kept when it is new, the second also only when it differs from the first. */
  lemma FirstSightPair(seen: seq<Address>, x: Address, y: Address)
    ensures FirstSight(seen, [x, y]) == (if x in seen then [] else [x]) + (if y in seen || y == x then [] else [y])
  {
    assert [x, y][1..] == [y] && [y][1..] == [];
    var seen' := if x in seen then seen else seen + [x];
    assert FirstSight(seen', [y]) == if y in seen' then [] else [y];
  }

  /**
   * Queueing the new addresses of one more stretch of endpoints: what the
   * queue gained so far followed by what the next stretch adds is the
   * first-sight scan of both stretches together.
   */
  lemma QueueExtends<K>(order: seq<K>, queue0: seq<K>, queue: seq<K>, queue': seq<K>, xs: seq<K>, ys: seq<K>)
    requires queue == queue0 + FirstSight(order + queue0, xs)
    requires queue' == queue + FirstSight(order + queue, ys)
    ensures queue' == queue0 + FirstSight(order + queue0, xs + ys)
  {
    var seen := order + queue0;
    var f1 := FirstSight(seen, xs);
    var f2 := FirstSight(seen + f1, ys);
    ConcatAssoc(order, queue0, f1);
    ConcatAssoc(queue0, f1, f2);
    FirstSightAppend(seen, xs, ys);
  }

  /** After queueing the first sightings of `xs`, everything queued before and everything in `xs` has been queued. */
  lemma QueueCovers<K>(order: seq<K>, queue0: seq<K>, queue: seq<K>, xs: seq<K>, x: K)
    requires queue == queue0 + FirstSight(order + queue0, xs)
    requires x in order + queue0 || x in xs
    ensures x in order + queue
  {
    ConcatAssoc(order, queue0, FirstSight(order + queue0, xs));
    if x in xs {
      FirstSightCovers(order + queue0, xs, x);
    }
  }

  /** Both ends of every edge appear among the edges' endpoints. */
  lemma {:induction false} EndsCover(es: seq<Edge>, e: Edge)
    requires e in es
    ensures e.source in Ends(es) && e.target in Ends(es)
    decreases |es|
  {
    var n := |es| - 1;
    if es[n] != e {
      assert e in es[..n];
      EndsCover(es[..n], e);
    }
  }

  lemma MoveHead<K>(order: seq<K>, queue: seq<K>)
    requires 0 < |queue|
    ensures order + queue == (order + [queue[0]]) + queue[1..]
  {
    assert queue == [queue[0]] + queue[1..];
    ConcatAssoc(order, [queue[0]], queue[1..]);
  }

  lemma ConcatAssoc<K>(a: seq<K>, b: seq<K>, c: seq<K>)
    ensures a + (b + c) == (a + b) + c
  {
  }

  /** Visiting edge `j` extends the queue by the first sightings among the endpoints of the first `j + 1` edges. */
  lemma QueueStepAt(order: seq<Address>, queue0: seq<Address>, queue: seq<Address>, queue': seq<Address>,
                    es: seq<Edge>, j: nat)
    requires j < |es|
    requires queue == queue0 + FirstSight(order + queue0, Ends(es[..j]))
    requires queue' == queue + FirstSight(order + queue, [es[j].source, es[j].target])
    ensures queue' == queue0 + FirstSight(order + queue0, Ends(es[..j + 1]))
  {
    assert es[..j + 1][..j] == es[..j];
    QueueExtends(order, queue0, queue, queue', Ends(es[..j]), [es[j].source, es[j].target]);
  }

  /**
   * The `async for edge in top` loop over the first `n` edges of the reply
   * for the address fetched last: both endpoints of each edge end up
   * visited, and the endpoints met for the first time are queued in the
   * order they are met.
   */
  method VisitEdges(ghost net: Network, seed: Address, ghost U: set<Address>, order: seq<Address>, es: seq<Edge>, n: nat,
                    visited0: set<Address>, queue0: seq<Address>, ghost parent0: seq<nat>)
    returns (visited: set<Address>, queue: seq<Address>, ghost parent: seq<nat>)
    requires n <= |es|
    requires 0 < |order| && forall e :: e in es ==> e in Delivered(net, order[|order| - 1])
    requires QueueInv(net, seed, U, visited0, order + queue0, parent0, |order|)
    ensures QueueInv(net, seed, U, visited, order + queue, parent, |order|)
    ensures queue == queue0 + FirstSight(order + queue0, Ends(es[..n]))
  {
    if n == 0 {
      assert es[..0] == [];
      return visited0, queue0, parent0;
    }
    var e := es[n - 1];
    assert e in es;
    var queue1;
    visited, queue1, parent := VisitEdges(net, seed, U, order, es, n - 1, visited0, queue0, parent0);
    visited, queue, parent := VisitEdge(net, seed, U, order, visited, queue1, parent, e);
    QueueStepAt(order, queue0, queue1, queue, es, n - 1);
  }

  /** Adding the reply's edges to the graph while visiting them one by one. */
  method AddEdges(ghost net: Network, seed: Address, ghost U: set<Address>, order: seq<Address>, es: seq<Edge>,
                  visited0: set<Address>, queue0: seq<Address>, edges0: set<Edge>, ghost parent0: seq<nat>)
    returns (visited: set<Address>, queue: seq<Address>, edges: set<Edge>, ghost parent: seq<nat>)
    requires 0 < |order| && forall e :: e in es ==> e in Delivered(net, order[|order| - 1])
    requires QueueInv(net, seed, U, visited0, order + queue0, parent0, |order|)
    requires forall e :: e in edges0 ==> e.source in visited0 && e.target in visited0
    ensures QueueInv(net, seed, U, visited, order + queue, parent, |order|)
    ensures edges == edges0 + Elements(es)
    ensures forall e :: e in edges ==> e.source in visited && e.target in visited
    ensures queue == queue0 + FirstSight(order + queue0, Ends(es))
  {
    visited, queue, parent := VisitEdges(net, seed, U, order, es, |es|, visited0, queue0, parent0);
    assert es[..|es|] == es;
    edges := edges0 + Elements(es);
    forall e | e in edges
      ensures e.source in visited && e.target in visited
    {
      if e !in edges0 {
        EndsCover(es, e);
      }
      QueueCovers(order, queue0, queue, Ends(es), e.source);
      QueueCovers(order, queue0, queue, Ends(es), e.target);
    }
  }

  /** Once the queue is empty, everything visited was fetched and every fetched edge has both ends visited. */
  lemma FinishedCrawl(net: Network, visited: set<Address>, order: seq<Address>, edges: set<Edge>)
    requires Distinct(order) && visited == Elements(order)
    requires edges == EdgesAlong(net, order)
    requires forall e :: e in edges ==> e.source in visited && e.target in visited
    ensures |order| == |visited|
    ensures Closed(net, visited)
  {
    DistinctCard(order);
    forall a, e | a in visited && e in Delivered(net, a)
      ensures e.source in visited && e.target in visited
    {
      var k :| 0 <= k < |order| && order[k] == a;
      EdgesAlongComplete(net, order, k, e);
    }
  }

  /**
   * The state of `make_graph` between two turns of its loop: the queue
   * bookkeeping; the graph holds the edges of the addresses fetched so far,
   * none of which raised, with both ends of each visited; and fetched then
   * queued addresses are the seed followed by every endpoint met so far
   * for the first time, in the order met.
   */
  ghost predicate Crawling(net: Network, seed: Address, U: set<Address>, visited: set<Address>,
                           order: seq<Address>, queue: seq<Address>, edges: set<Edge>, parent: seq<nat>)
  {
    && QueueInv(net, seed, U, visited, order + queue, parent, |order|)
    && edges == EdgesAlong(net, order)
    && (forall a :: a in order ==> !ListingOf(net, a).Failed?)
    && (forall e :: e in edges ==> e.source in visited && e.target in visited)
    && order + queue == [seed] + FirstSight([seed], EndsAlong(net, order))
  }

  /**
   * Fetching the head of a queue that is the first-sight scan of `xs`
   * behind the seed, then queueing the first sightings of `ys`, leaves the
   * first-sight scan of `xs + ys` behind the seed.
   */
  lemma ScanStep<K>(seed: K, xs: seq<K>, ys: seq<K>, order: seq<K>, queue: seq<K>, queue': seq<K>)
    requires 0 < |queue| && order + queue == [seed] + FirstSight([seed], xs)
    requires queue' == queue[1..] + FirstSight((order + [queue[0]]) + queue[1..], ys)
    ensures (order + [queue[0]]) + queue' == [seed] + FirstSight([seed], xs + ys)
  {
    var q := order + queue;
    var f1 := FirstSight([seed], xs);
    var f2 := FirstSight([seed] + f1, ys);
    assert (order + [queue[0]]) + queue[1..] == q;
    FirstSightAppend([seed], xs, ys);
    calc {
      (order + [queue[0]]) + queue';
      ((order + [queue[0]]) + queue[1..]) + FirstSight(q, ys);
      q + f2;
      ([seed] + f1) + f2;
      [seed] + (f1 + f2);
    }
  }

  /** Fetching the head of the queue appends the endpoints it delivers to the first-sight scan. */
  lemma OrderStep(net: Network, seed: Address, order: seq<Address>, queue: seq<Address>, queue': seq<Address>)
    requires 0 < |queue| && order + queue == [seed] + FirstSight([seed], EndsAlong(net, order))
    requires queue' == queue[1..] + FirstSight((order + [queue[0]]) + queue[1..], Ends(Delivered(net, queue[0])))
    ensures (order + [queue[0]]) + queue' == [seed] + FirstSight([seed], EndsAlong(net, order + [queue[0]]))
  {
    assert (order + [queue[0]])[..|order|] == order;
    ScanStep(seed, EndsAlong(net, order), Ends(Delivered(net, queue[0])), order, queue, queue');
  }

  /** Taking one more address off the queue keeps the bookkeeping: parents fetched earlier are still fetched earlier. */
  lemma FetchKeepsInv(net: Network, seed: Address, U: set<Address>, visited: set<Address>,
                      enq: seq<Address>, parent: seq<nat>, processed: nat)
    requires QueueInv(net, seed, U, visited, enq, parent, processed)
    ensures QueueInv(net, seed, U, visited, enq, parent, processed + 1)
  {
    forall k | 0 < k < |enq|
      ensures parent[k] < k && parent[k] < processed + 1
      ensures exists e :: e in Delivered(net, enq[parent[k]]) && enq[k] in e.Endpoints()
    {
    }
  }

  /** The body of the `async for` loop once the head of the queue was fetched without raising. */
  method ProcessReply(ghost net: Network, seed: Address, ghost U: set<Address>, order0: seq<Address>,
                      queue0: seq<Address>, visited0: set<Address>, edges0: set<Edge>, ghost parent0: seq<nat>,
                      es: seq<Edge>)
    returns (order: seq<Address>, queue: seq<Address>, visited: set<Address>, edges: set<Edge>, ghost parent: seq<nat>)
    requires 0 < |queue0| && Crawling(net, seed, U, visited0, order0, queue0, edges0, parent0)
    requires !ListingOf(net, queue0[0]).Failed? && es == Delivered(net, queue0[0])
    ensures Crawling(net, seed, U, visited, order, queue, edges, parent)
    ensures order == order0 + [queue0[0]] && |order| <= |U|
  {
    var top := queue0[0];
    MoveHead(order0, queue0);
    order := order0 + [top];
    FetchKeepsInv(net, seed, U, visited0, order0 + queue0, parent0, |order0|);
    EdgesAlongSnoc(net, order0, top);
    visited, queue, edges, parent := AddEdges(net, seed, U, order, es, visited0, queue0[1..], edges0, parent0);
    OrderStep(net, seed, order0, queue0, queue);
    QueueWithinUniverse(net, seed, U, visited, order + queue, parent, |order|);
  }

  /** One turn of the `while` loop: the head of the queue is fetched and its reply processed; a fetch that raises ends the crawl. */
  method FetchNext(net: Network, seed: Address, ghost U: set<Address>, order0: seq<Address>, queue0: seq<Address>,
                   visited0: set<Address>, edges0: set<Edge>, ghost parent0: seq<nat>)
    returns (err: Option<CrawlError>, order: seq<Address>, queue: seq<Address>, visited: set<Address>,
             edges: set<Edge>, ghost parent: seq<nat>)
    requires 0 < |queue0| && Crawling(net, seed, U, visited0, order0, queue0, edges0, parent0)
    ensures err.Some? ==> err.value.addr == queue0[0] && StoppedAt(net, seed, order0, err.value.addr, parent0)
    ensures err.None? ==> Crawling(net, seed, U, visited, order, queue, edges, parent)
    ensures err.None? ==> order == order0 + [queue0[0]] && |order| <= |U|
  {
    var fetched := GetNeighbours(net, queue0[0]);
    if fetched.Failure? {
      err := Some(fetched.error);
      StopPoint(net, seed, U, visited0, order0, queue0, edges0, parent0);
      order, queue, visited, edges, parent := order0, queue0, visited0, edges0, parent0;
      return;
    }
    err := None;
    order, queue, visited, edges, parent := ProcessReply(net, seed, U, order0, queue0, visited0, edges0, parent0, fetched.value);
  }

  /**
   * A crawl that raised at `a` after fetching `fetched`: `a`'s fetch
   * raised, none of the earlier ones did, `a` is the next address of the
   * first-sight scan of the endpoints delivered so far, and each address up
   * to `a` other than the seed was found on an edge of an address fetched
   * before it.
   */
  ghost predicate StoppedAt(net: Network, seed: Address, fetched: seq<Address>, a: Address, parent: seq<nat>)
  {
    var o := fetched + [a];
    && ListingOf(net, a).Failed?
    && (forall b :: b in fetched ==> !ListingOf(net, b).Failed?)
    && o <= [seed] + FirstSight([seed], EndsAlong(net, fetched))
    && |o| <= |parent|
    && (forall k :: 0 < k < |o| ==>
          parent[k] < k && parent[k] < |fetched| && exists e :: e in Delivered(net, o[parent[k]]) && o[k] in e.Endpoints())
  }

  /** A crawl whose next fetch raises stops at the head of its queue. */
  lemma StopPoint(net: Network, seed: Address, U: set<Address>, visited: set<Address>, order: seq<Address>,
                  queue: seq<Address>, edges: set<Edge>, parent: seq<nat>)
    requires 0 < |queue| && Crawling(net, seed, U, visited, order, queue, edges, parent)
    requires ListingOf(net, queue[0]).Failed?
    ensures StoppedAt(net, seed, order, queue[0], parent)
  {
    var o := order + [queue[0]];
    var q := order + queue;
    assert o <= q by {
      forall k | 0 <= k < |o|
        ensures o[k] == q[k]
      {
      }
    }
    forall k | 0 < k < |o|
      ensures parent[k] < k
    {
      assert k < |q|;
    }
    forall k | 0 < k < |o|
      ensures parent[k] < |order| && exists e :: e in Delivered(net, o[parent[k]]) && o[k] in e.Endpoints()
    {
      assert o[k] == q[k] && o[parent[k]] == q[parent[k]];
    }
  }

  /**
   * A crawl cannot stop at an address it never reached: from a seed whose
   * reply is empty, no failure at a peer of some other node is possible,
   * whatever the discoverer indices.
   */
  lemma NoStopBeyondReach(parent: seq<nat>)
    ensures !StoppedAt(map["S" := Complete([]), "X" := Complete([Connection("Y", false)])], "S", ["S", "X"], "Y", parent)
  {
    var net := map["S" := Complete([]), "X" := Complete([Connection("Y", false)])];
    var o := ["S", "X"] + ["Y"];
    assert Delivered(net, "S") == [];
    if 1 < |parent| {
      assert o[1] == "X" && (parent[1] < 1 ==> o[parent[1]] == "S");
    }
  }

  /**
   * The crawl: the seed is marked visited before it is queued; addresses
   * are fetched in queue order. On success every address was fetched
   * exactly once, the visited set is closed under the fetched edges, every
   * visited address other than the seed was found on an edge of an address
   * fetched before it, the graph holds exactly the fetched edges, and the
   * fetch order is the seed followed by the endpoints of the fetched
   * replies, in reply order, each at its first appearance. A failure names
   * the address whose fetch raised: the addresses `fetched` before it all
   * succeeded, and it is the next address of the same first-sight scan.
   */
  method MakeGraph(net: Network, seed: Address)
    returns (r: Result<Crawl, CrawlError>, ghost parent: seq<nat>, ghost fetched: seq<Address>)
    ensures r.Failure? ==> ListingOf(net, r.error.addr).Failed?
    ensures r.Failure? ==> StoppedAt(net, seed, fetched, r.error.addr, parent)
    ensures r.Success? ==>
      var c := r.value;
      && 0 < |c.order| && c.order[0] == seed
      && Distinct(c.order)
      && c.visited == Elements(c.order)
      && |c.order| == |c.visited|
      && c.edges == EdgesAlong(net, c.order)
      && Closed(net, c.visited)
      && (forall a :: a in c.visited ==> !ListingOf(net, a).Failed?)
      && c.order == [seed] + FirstSight([seed], EndsAlong(net, c.order))
    ensures r.Success? ==>
      var c := r.value;
      && fetched == c.order
      && |parent| == |c.order|
      && (forall k :: 0 < k < |c.order| ==>
            parent[k] < k && exists e :: e in Delivered(net, c.order[parent[k]]) && c.order[k] in e.Endpoints())
      && (forall i, k :: 0 < i < k < |c.order| ==> parent[i] <= parent[k])
  {
    ghost var U := UniverseIsClosed(net, seed);
    var visited: set<Address> := {seed};
    var queue: seq<Address> := [seed];
    var order: seq<Address> := [];
    var edges: set<Edge> := {};
    parent := [0];
    while 0 < |queue|
      invariant Crawling(net, seed, U, visited, order, queue, edges, parent)
      invariant |order| <= |U|
      decreases |U| - |order|
    {
      ghost var order0, parent0 := order, parent;
      var err;
      err, order, queue, visited, edges, parent := FetchNext(net, seed, U, order, queue, visited, edges, parent);
      if err.Some? {
        return Failure(err.value), parent0, order0;
      }
    }
    assert order + queue == order;
    FinishedCrawl(net, visited, order, edges);
    r := Success(Crawl(edges, visited, order));
    fetched := order;
  }
}
